=== FILE: README.md ===
# Voice workout assistant — a Dafny model

The repository is a small voice-driven workout coach. A browser page
listens to the user and picks out a muscle group. It asks for a spoken
"yes", asks a server for matching exercises, and then reads them back.
The same page runs a five-question spoken usability assessment and posts
the answers. An alternative page script parses requests with a regular
expression and drives the avatar and status display. Two Express servers
answer these requests:

- The validating server (`workout-app/server.js`) keeps per-user profiles
  in memory, builds coaching prompts with defaults, looks exercises up in
  ExerciseDB with input checks, and accepts assessment results.
- The site's copy (`mohan-kolla.github.io/workout-app/server.js`) looks
  exercises up without any checks and has an extra route that records a
  user's challenge.

The model keeps each page's globals as one immutable record. Every browser
event or server request is a pure function from the old state to the new
state and the reply. Anything outside the model is a parameter:

- what the speech recogniser heard;
- what the exercise lookup returned;
- what ExerciseDB or the completion service answered.

Requests the page sends to the speech engines and to the server are
returned as a list of effects, in order.

Modules:

- `Strings`: substring search as `includes` does it, `join`, and decimal
  rendering of numbers.
- `Js`: JSON values and JavaScript truthiness.
- `Exercises`: ExerciseDB entries and their reshaping.
- `Intents`: muscle-group spotting, the yes/no decision and Likert answers.
- `Conversation`: turns, presence and effects.
- `Assessment`: the five-question assessment.
- `Dialogue`: the controller of `workout-app/frontend.js`.
- `PublicDialogue`: the controller of `workout-app/public/frontend.js`.
- `Http`: reply bodies and status codes.
- `Profiles`: the profile store and create-workout, identical in both
  servers.
- `Server`: the validating server's other routes.
- `SiteServer`: the site server's other routes.
- `Integration`: lemmas that join a page and a server.

The code has no conversation phase variable. Nothing guards against a late
lookup reply. "End Conversation" does not reset the confirmation flag or the
muscle group.

The assessment is not switched off by its last answer. `finishAssessment`
stops the recogniser, but the end handler of the thank-you utterance sets
the avatar to listening and starts it again, and the assessment handler is
still in place. A further answer containing "agree" or "neutral" is stored
as "Question 6" without a question text, and all answers are posted again;
any other answer gets the re-prompt. `Assessment.PostsAgainAfterFive` and
`Dialogue.AssessmentResumesAfterFinish` state this.

"End Conversation" sets the avatar to listening. So the recogniser's end
event that `stop()` triggers starts listening again, which
`Dialogue.StopIsFollowedByRestart` proves.

The "Begin Conversation" and "Start Assessment" events carry a flag that
says whether the browser has a speech recogniser constructor. Without one
the handler throws before doing anything, so the event changes nothing.

## Model

| member | source | states |
|---|---|---|
| Strings.Includes | workout-app/frontend.js:110 | `includes` holds exactly when the pattern occurs at some position of the text |
| Strings.IncludesTransitive | workout-app/frontend.js:238-242 | a text containing a phrase contains every substring of that phrase |
| Strings.Join | workout-app/frontend.js:185 | `join(", ")` is empty for an empty list; otherwise it starts with the first item (followed by the separator when there are more) and its length is the items' total length plus one separator per neighbouring pair |
| Strings.JoinIncludesEach | workout-app/frontend.js:185 | the `", "`-joined list contains every one of its items |
| Strings.NatToStringInjective | workout-app/frontend.js:245 | different question numbers render as different decimal strings |
| Strings.NatToString | workout-app/frontend.js:245 | `${n}` renders a non-negative integer as decimal digits that, read from left to right, spell exactly `n`: at least one digit, "0" for zero and no leading zero otherwise |
| Js.Truthy | workout-app/server.js:120 | `undefined` and `null` are falsy; every array and object, even an empty one, is truthy |
| Js.FalsyValues | workout-app/server.js:72-78 | a value is falsy exactly when it is `undefined`, `null`, `false`, `0` or `""` |
| Js.Or | workout-app/server.js:76-78 | JavaScript's logical or gives its left operand when that is truthy and its right operand otherwise, and is truthy exactly when either operand is |
| Js.KeyCount | workout-app/server.js:158 | `Object.keys(v).length` counts an object's keys (zero exactly for `{}`), an array's items and a string's code points, and is zero for booleans and numbers |
| Js.Get | workout-app/server.js:77-78 | reading a property gives its stored value, and a missing one gives `undefined`, which is falsy |
| Js.GetAfterSet | workout-app/server.js:72-78 | a property read after it was assigned gives the assigned value, and assigning one property does not change what another reads |
| Conversation.Append | workout-app/frontend.js:94-95 | appending a turn keeps the earlier turns in order and adds exactly that turn at the end |
| Exercises.Format | workout-app/server.js:141-145 | reshaping keeps the list's length and order and copies name, equipment and target into `targetMuscle` |
| Exercises.FormatAppend | workout-app/server.js:141-145 | reshaping a concatenation is the concatenation of the reshaped parts |
| Exercises.FormatKeepsNames | workout-app/server.js:141-145 | the reshaped list has the database's names, in the database's order |
| Exercises.Names | workout-app/frontend.js:185 | `exercises.map(ex => ex.name)` keeps the list's length and gives each exercise's name at its index |
| Intents.FindMuscleGroup | workout-app/frontend.js:108-118 | no group is found exactly when the transcript mentions none of the six; otherwise the result is the first group in vocabulary order that the transcript mentions |
| Intents.ChestWins | workout-app/frontend.js:108-118 | a transcript that mentions "chest" always selects chest, whatever else it mentions |
| Intents.ArmsAndChestIsChest | workout-app/frontend.js:108-118 | vocabulary order decides, not word order: "arms and chest" selects chest |
| Intents.Decide | workout-app/frontend.js:128-158 | "yes" anywhere wins; otherwise "no" anywhere declines; otherwise the answer is unclear |
| Intents.LikertReduces | workout-app/frontend.js:238-242 | the five-phrase test accepts exactly the transcripts containing "agree" or "neutral" |
| Intents.IsLikert | workout-app/frontend.js:238-242 | an answer containing "agree" or "neutral" is accepted; `Intents.LikertReduces` gives the converse |
| Assessment.QuestionKeyInjective | workout-app/frontend.js:245 | different answer counts give different "Question k" keys |
| Assessment.QuestionKey | workout-app/frontend.js:245 | the key for number `k` is "Question " followed by decimal digits that spell `k` |
| Assessment.QuestionAt | workout-app/frontend.js:246 | `questions[k]` is the k-th question text for the five questions and `undefined` from the sixth on |
| Assessment.FirstQuestionMessage | workout-app/frontend.js:276 | the first question opens with "Question 1: " and the first question's text, and contains the answering instruction |
| Assessment.NextQuestionMessage | workout-app/frontend.js:257-258 | the question asked after `n` answers opens with its number, its text and the line break inside the template, and contains the answering instruction |
| Assessment.AnswerJson | workout-app/frontend.js:245-248 | a recorded answer is posted as an object with its `answer` text and with a `question` field exactly when the question exists, and no other field |
| Assessment.AcceptedKeyIsFresh | workout-app/frontend.js:245-251 | an accepted answer never overwrites an earlier one |
| Assessment.ResponsesJson | workout-app/frontend.js:291-297 | the posted object has one field per recorded answer, under the same key, holding that answer's `{ question, answer }` object |
| Assessment.Start | workout-app/frontend.js:202-279 | the assessment starts with no answers, starts listening, then speaks and logs question 1, and posts nothing |
| Assessment.Respond | workout-app/frontend.js:232-305 | the answer is logged; a non-Likert answer changes nothing and speaks and logs the re-prompt; an accepted answer that leaves questions open speaks and logs the next question; the last one stops listening, speaks and logs the thank-you and posts; a Likert answer is recorded under the next key without touching the others; the results are posted exactly when the last question is answered, and the post carries every recorded answer |
| Assessment.AskedQuestionMatchesKey | workout-app/frontend.js:245-258 | the question asked after `n` accepted answers opens with "Question n+1:", the key its answer will be stored under, and quotes that question's text |
| Assessment.FirstQuestionMatchesKey | workout-app/frontend.js:276 | the first question opens with "Question 1:", the key its answer is stored under |
| Assessment.RespondKeepsConsistent | workout-app/frontend.js:245-251 | the recorded keys are always "Question 1" up to the counter |
| Assessment.FinishesAtFive | workout-app/frontend.js:254-263 | from a consistent state with fewer than five answers, the results are posted exactly on the fifth accepted answer, which leaves five answers |
| Assessment.PostsAgainAfterFive | workout-app/frontend.js:245-264 | from a consistent state with all five answered, a further accepted answer is recorded under the next key with no question text, and every answer is posted again |
| Dialogue.StartConversation | workout-app/frontend.js:45-51 | the conversation handler is installed, listening starts and then the welcome is spoken, and the welcome is logged; the dialogue fields and the avatar carry over |
| Dialogue.StopConversation | workout-app/frontend.js:54-63 | the avatar returns to listening and one system message is logged; the requests are exactly a stop (only when a recogniser exists) followed by a speech cancel; the dialogue fields are kept |
| Dialogue.ClearConversationHistory | workout-app/frontend.js:66-72 | the history is emptied and nothing else changes |
| Dialogue.Initial | workout-app/frontend.js:2-7 | the page loads with no recogniser, no confirmation pending, no group, an empty history and the avatar listening, which satisfies the dialogue invariant |
| Dialogue.ConfirmMessage | workout-app/frontend.js:112 | the confirmation names the group right after its opening words and asks for a yes or a no |
| Dialogue.ExercisesMessage | workout-app/frontend.js:186 | the summary opens with the group and then the first exercise's name, and is the bare prefix for an empty list |
| Dialogue.HandleWorkoutRequest | workout-app/frontend.js:106-124 | a recognised group is stored and confirmation becomes pending, with a question that names the group; otherwise only the help message is logged |
| Dialogue.HandleConfirmation | workout-app/frontend.js:127-188 | a lookup is issued exactly when the transcript contains "yes", for the pending group; the processing message is logged, then either the exercise summary is logged and spoken or the system's apology is logged with nothing spoken; "no" clears the confirmation; anything else asks again |
| Dialogue.OnConversationResult | workout-app/frontend.js:32-41 | the flag alone picks the handler: while a confirmation is pending the group is kept, and the history and requests are those of the confirmation handler for "yes", "no" or neither; otherwise no lookup is issued, a named group is stored with its confirmation question logged and spoken, and an unnamed one gets the help message |
| Dialogue.ConfirmationIsModal | workout-app/frontend.js:36-40 | through `onresult`, a pending confirmation cannot change the group, and without one no lookup is issued |
| Dialogue.StartAssessment | workout-app/frontend.js:202-279 | the assessment handler is installed with a zero counter and no answers; listening starts, then question 1 is spoken; question 1 is logged; the dialogue fields and the avatar carry over |
| Dialogue.Step | workout-app/frontend.js:15-88 | without a recogniser constructor the start buttons change nothing; with one they do exactly what starting the conversation or the assessment does; a transcript goes to the handler the current recogniser carries, and to none before the first start; speech start and end switch presence; the recogniser's own events do nothing before a recogniser exists, and its end event restarts listening only while the avatar is listening |
| Dialogue.StepPreservesValid | workout-app/frontend.js:4-251 | from a valid state every event leaves the group empty or in the vocabulary, gives every pending confirmation a group, and keeps the assessment's answers in step with its counter |
| Dialogue.LookupOnlyAfterYes | workout-app/frontend.js:36-143 | every lookup comes from a pending confirmation answered with "yes", and asks about the pending vocabulary group |
| Dialogue.HistoryAppendOnly | workout-app/frontend.js:94-103 | every event except "Clear History" keeps the existing history as a prefix |
| Dialogue.SummaryNamesEveryExercise | workout-app/frontend.js:185-186 | the spoken summary names every exercise in the list |
| Dialogue.StopIsFollowedByRestart | workout-app/frontend.js:26-63 | after "End Conversation", the recogniser's end event starts listening again |
| Dialogue.AssessmentResumesAfterFinish | workout-app/frontend.js:83-87 | after the fifth answer stops the recogniser, the end of any utterance starts it again, and a further accepted answer is stored as "Question 6" with no question text and posts all six answers |
| Dialogue.ChestScenario | workout-app/frontend.js:32-159 | "i want to work out my chest" then "yes" looks up chest, and the last trainer message names the exercise returned |
| PublicDialogue.SetAvatarState | workout-app/public/frontend.js:60-80 | the state becomes the requested one; repeating the current state changes nothing; "listening" and "talking" set their image, text, status and loader; any other state leaves the display alone |
| PublicDialogue.SetAvatarStateIdempotent | workout-app/public/frontend.js:61 | setting the same avatar state twice is setting it once |
| PublicDialogue.RestOfLine | workout-app/public/frontend.js:33 | `(.*)` captures the longest prefix free of line terminators |
| PublicDialogue.Extract | workout-app/public/frontend.js:33 | there is no match exactly when none of "workout my ", "train my ", "exercise my " occurs; otherwise the capture is the rest of the line after the leftmost keyword |
| PublicDialogue.ExtractRoundTrip | workout-app/public/frontend.js:33 | a request made of a keyword followed by a one-line group extracts that group |
| PublicDialogue.RetrainMyLegs | workout-app/public/frontend.js:33 | the pattern is not anchored: "retrain my legs" extracts "legs" |
| PublicDialogue.ConfirmMessage | workout-app/public/frontend.js:40 | the confirmation is the opening words, the captured group verbatim, and the closing question |
| PublicDialogue.HandleWorkoutRequest | workout-app/public/frontend.js:32-54 | a non-empty capture stores the group, logs the request and the confirmation, sets confirmation pending and leaves the avatar listening; with no capture and nothing pending the apology is logged; with no capture while a confirmation is pending nothing changes |
| PublicDialogue.ResetState | workout-app/public/frontend.js:83-95 | the flag and the group are cleared, one ready message is appended, the table is emptied and the avatar listens |
| PublicDialogue.ResetTwice | workout-app/public/frontend.js:83-95 | a second reset changes nothing but appending one more ready message |
| PublicDialogue.StateOrListening | workout-app/public/frontend.js:20 | the reply's `state` with "listening" as the fallback is never empty: the reply's state when it is a non-empty string, "listening" otherwise |
| PublicDialogue.FetchExercisesForMuscleGroup | workout-app/public/frontend.js:2-29 | a reply with exercises fills the table and takes the reply's state, or "listening" when it has none; a failure or a reply without exercises shows the error advice and returns to listening |
| Profiles.UpdateUserProfile | workout-app/server.js:36-41 | the user's profile becomes the old profile (empty when absent) merged with the data, the data winning; other users are untouched |
| Profiles.UpdateIdempotent | mohan-kolla.github.io/workout-app/server.js:33-38 | merging the same data twice is merging it once |
| Profiles.UpdateTwice | mohan-kolla.github.io/workout-app/server.js:33-38 | two merges in a row equal one merge of the combined data |
| Profiles.ProfileOf | workout-app/server.js:76 | a user's stored profile, or the empty object when there is none |
| Profiles.RecordGoal | workout-app/server.js:72-74 | a falsy goal leaves the store alone; a truthy one is stored in the user's profile, every other key and user kept |
| Profiles.CreateWorkout | workout-app/server.js:69-114 | the prompt's goal and challenge are always truthy: a given goal is used and stored, otherwise the stored one, otherwise "get fit"; the challenge is the stored one or "consistency"; the user's response is stored only after a successful completion; 200 "talking" or 500 "listening" |
| Server.GetExercises | workout-app/server.js:117-152 | a missing group gives 400 without a lookup; an empty or missing result gives 404; a failed call gives 500 "listening"; 200 "talking" exactly when entries came back, with the list reshaped |
| Server.SaveAssessment | workout-app/server.js:155-169 | 400 exactly when `responses` is missing or has no keys, 200 otherwise |
| Server.ReplyTagsFollowStatus | workout-app/server.js:109-150 | successful replies tag the avatar "talking", server failures "listening", request errors carry no tag |
| Server.ChallengeAlwaysDefault | workout-app/server.js:69-114 | with no route that records challenges, every prompt of this server uses the challenge "consistency" |
| SiteServer.GetExercises | mohan-kolla.github.io/workout-app/server.js:118-148 | the database is always asked; any returned list gives 200 "talking", and a missing list or a failed call gives 500 "listening" |
| SiteServer.LookupsAgreeWhenValid | mohan-kolla.github.io/workout-app/server.js:118-148 | the two servers agree for a given group when the database fails or returns entries; they differ on a missing group, an empty result and a missing result |
| SiteServer.UpdateChallenges | mohan-kolla.github.io/workout-app/server.js:152-178 | the challenge is stored before the completion call, other keys and users are untouched; 200 with the coaching text or 500 |
| SiteServer.ChallengePersistsOnFailure | mohan-kolla.github.io/workout-app/server.js:155-176 | the stored challenge does not depend on the completion call's outcome |
| SiteServer.ChallengeFeedsNextWorkout | mohan-kolla.github.io/workout-app/server.js:75-155 | a truthy recorded challenge is the challenge of the user's next create-workout prompt |
| Integration.DialogueLookup | workout-app/frontend.js:142-147 | the page gets an exercise list exactly when the server's reply carries one |
| Integration.PublicFetch | workout-app/public/frontend.js:12-20 | the page sees the reply's own state tag, and exactly the reply's exercise list when it carries one |
| Integration.ConfirmedLookupNeverRejected | workout-app/server.js:120-122 | every lookup the dialogue issues names a group, so the server asks the database and never answers 400 |
| Integration.ConfirmedRound | workout-app/frontend.js:127-159 | a confirmed "yes" ends with the trainer naming the database's exercises in order when it returned some, and with the system's apology otherwise |
| Integration.PublicAvatarFollowsServer | workout-app/public/frontend.js:15-27 | against the validating server, a lookup leaves the alternative page talking on 200 and listening with the error advice on every error |
| Integration.PostedResponsesAccepted | workout-app/server.js:158-160 | the answers an assessment posts always include the one that finished it |
| Integration.FinishedAssessmentAccepted | workout-app/frontend.js:281-305 | whatever event posts the assessment results, the server accepts them with 200 |

## Left out

- Speech synthesis and recognition internals, the DOM, console logging and the status line of `workout-app/frontend.js` are not modelled. The spoken text becomes a `Speak` effect.
- `displayExercises` returns early when the page has no exercise table. The model assumes the table is present. The HTML of the table is not modelled.
- The assessment asks its next question from a one-second `setTimeout`. The model appends that question in the same step. Interleavings of asynchronous handlers, such as a late lookup reply, are not modelled.
- `String.prototype.toLowerCase` is applied to transcripts before the model sees them. Unicode case mapping is not modelled.
- `getRandomPrompt`, the prompt variations and the text sent to the completion service are left out, because they are random and external. The call's outcome is the `Completion` parameter.
- The network calls (`fetch`, `axios.request`, `openai.chat.completions.create`) are not modelled. Their outcomes are parameters.
- `completion.data.choices[0].message.content` fails when the response has no `data`. That case is folded into `CompletionFailed`, and the client library's response shape is not modelled.
- ExerciseDB data that is not a list is not modelled. `ExerciseDbReply` carries a list or its absence.
- Request bodies whose `userId` is not a string are not modelled. JavaScript would turn such ids into string keys.
- Numbers are modelled as integers only.
- Strings are modelled as sequences of Unicode code points. JavaScript counts UTF-16 code units, so a character outside the Basic Multilingual Plane has length 2 there and 1 here. Only the zero test at `workout-app/server.js:158` depends on a length, and it gives the same answer either way.
- The catch branch of save-assessment (500) is not modelled. Nothing in its `try` block can throw.
- `workout-app/public/frontend.js` calls an `updateConversationHistory` it does not define. It is taken to append one turn, as the one in `workout-app/frontend.js` does.
- `workout-app/public/frontend.js` calls a `displayExercisesInTable` it does not define. It is taken to exist and to show the list without failing. If it were missing, the call would throw and the catch path would run. `PublicDialogue.FetchExercisesForMuscleGroup` and `Integration.PublicAvatarFollowsServer` rest on this.
- `workout-app/public/frontend.js` uses the `avatarImage`, `status`, `loader` and `advice` elements without checking that they exist. The model assumes they do. If one were missing, `setAvatarState` or the catch branch would throw; in `handleWorkoutRequest` that would leave the user's turn logged without the confirmation. `PublicDialogue.SetAvatarState`, `PublicDialogue.HandleWorkoutRequest`, `PublicDialogue.ResetState` and `PublicDialogue.FetchExercisesForMuscleGroup` rest on this.
- `workout-app/public/frontend.js` reads and writes `awaitingConfirmation` and `muscleGroup` without declaring them. They are taken to be globals the page declares. Without them, the first unmatched request would throw at the `!awaitingConfirmation` check.
- The blog server and the under-construction page are not part of this model.
- Dialogue.DisplayExercises: has no contract of its own. What it logs and says is stated in `Dialogue.HandleConfirmation`.
- Dialogue.OnAssessmentResult: has no contract of its own. `Dialogue.Step` states what it does in terms of `Assessment.Respond`.

=== FILE: assessment.dfy ===
/** The spoken usability assessment of workout-app/frontend.js
    (`startAssessment` and its `onresult` handler, lines 202-305): five
    Likert questions, a counter, and the answers recorded under
    "Question k". */
module Assessment {
  import opened Wrappers
  import opened Strings
  import opened Js
  import opened Intents
  import opened Conversation

  const Questions: seq<string> := [
    "I found the workout assistant easy to interact with.",
    "The exercise recommendations provided by the assistant were helpful.",
    "I felt engaged during my interaction with the workout assistant.",
    "I trust the workout assistant to provide accurate exercise advice.",
    "I would use this workout assistant regularly for my fitness routine."
  ]

  const Instruction := "Please respond with Strongly Agree, Agree, Neutral, Disagree, or Strongly Disagree."
  const InvalidAnswerMessage := "Please respond with one of these options: Strongly Agree, Agree, Neutral, Disagree, or Strongly Disagree."
  const CompletionMessage := "Thank you for completing the assessment!"

  /** The first question, spoken when the assessment starts. */
  function FirstQuestionMessage(): (r: string)
    ensures IsPrefix("Question 1: " + Questions[0] + ". ", r)
    ensures Includes(r, Instruction)
  {
    var head := "Question 1: " + Questions[0] + ". ";
    assert OccursAt(head + Instruction, Instruction, |head|);
    "Question 1: " + Questions[0] + ". " + Instruction
  }

  /** The question asked after `n` accepted answers. The template literal
      spans two source lines, so the text carries a line break and the
      indentation of the second line. */
  function NextQuestionMessage(n: nat): (r: string)
    requires n < |Questions|
    ensures IsPrefix("Question " + NatToString(n + 1) + ": " + Questions[n] + ". \n", r)
    ensures Includes(r, Instruction)
  {
    var head := "Question " + NatToString(n + 1) + ": " + Questions[n] + ". \n                        ";
    assert OccursAt(head + Instruction, Instruction, |head|);
    "Question " + NatToString(n + 1) + ": " + Questions[n] + ". \n                        " + Instruction
  }

  /** `questions[k]`: `undefined` past the fifth question. */
  function QuestionAt(k: nat): (q: Option<string>)
    ensures q.Some? <==> k < |Questions|
    ensures q.Some? ==> q.value == Questions[k]
  {
    if k < |Questions| then Some(Questions[k]) else None
  }

  /** The key an answer is recorded under. */
  function QuestionKey(k: nat): (r: string)
    ensures IsPrefix("Question ", r) && |r| >= 10
    ensures AllDigits(r[9..]) && DecimalValue(r[9..]) == k
  {
    var r := "Question " + NatToString(k);
    assert r[9..] == NatToString(k);
    r
  }

  /** Distinct question numbers give distinct keys. */
  lemma {:induction false} QuestionKeyInjective(a: nat, b: nat)
    requires QuestionKey(a) == QuestionKey(b)
    ensures a == b
  {
    var prefix := "Question ";
    assert NatToString(a) == QuestionKey(a)[|prefix|..];
    assert NatToString(b) == QuestionKey(b)[|prefix|..];
    NatToStringInjective(a, b);
  }

  /** One recorded answer, `{ question, answer }`. */
  datatype Answer = Answer(question: Option<string>, answer: string)

  /** The state the `onresult` closure owns: `currentQuestion` and `responses`. */
  datatype Progress = Progress(current: nat, responses: map<string, Answer>)

  /** The keys "Question 1" to "Question n". */
  ghost function KeysUpTo(n: nat): set<string> {
    set k: nat | 1 <= k <= n :: QuestionKey(k)
  }

  /** The recorded answers are exactly those of the questions answered so far. */
  ghost predicate Consistent(p: Progress) {
    p.responses.Keys == KeysUpTo(p.current)
  }

  /** There are exactly `n` keys "Question 1" to "Question n". */
  lemma {:induction false} KeysUpToCount(n: nat)
    ensures |KeysUpTo(n)| == n
  {
    if n == 0 {
      assert KeysUpTo(0) == {};
    } else {
      assert KeysUpTo(n) == KeysUpTo(n - 1) + {QuestionKey(n)};
      assert QuestionKey(n) !in KeysUpTo(n - 1) by {
        forall k: nat | 1 <= k <= n - 1
          ensures QuestionKey(k) != QuestionKey(n)
        {
          assert DecimalValue(QuestionKey(k)[9..]) == k;
        }
      }
      KeysUpToCount(n - 1);
    }
  }

  /** One more answer adds exactly its key to the expected keys. */
  lemma KeysUpToNext(n: nat)
    ensures KeysUpTo(n + 1) == KeysUpTo(n) + {QuestionKey(n + 1)}
  {
  }

  /** In a consistent progress the counter is the number of recorded answers. */
  lemma CountMatchesResponses(p: Progress)
    requires Consistent(p)
    ensures |p.responses| == p.current
  {
    KeysUpToCount(p.current);
  }

  /** The key an accepted answer is stored under is a new one: no earlier
      answer is overwritten. */
  lemma AcceptedKeyIsFresh(p: Progress)
    requires Consistent(p)
    ensures QuestionKey(p.current + 1) !in p.responses
  {
    forall k: nat | 1 <= k <= p.current
      ensures QuestionKey(k) != QuestionKey(p.current + 1)
    {
      assert DecimalValue(QuestionKey(k)[9..]) == k;
    }
  }

  /** `JSON.stringify` of one answer: a missing question is dropped. */
  function AnswerJson(a: Answer): (v: Value)
    ensures v.Obj? && "answer" in v.fields && v.fields["answer"] == Str(a.answer)
    ensures "question" in v.fields <==> a.question.Some?
    ensures a.question.Some? ==> v.fields["question"] == Str(a.question.value)
    ensures v.fields.Keys <= {"question", "answer"}
  {
    match a.question
    case Some(q) => Obj(map["question" := Str(q), "answer" := Str(a.answer)])
    case None => Obj(map["answer" := Str(a.answer)])
  }

  /** The `responses` object as posted to the server. */
  function ResponsesJson(responses: map<string, Answer>): (v: Value)
    ensures v.Obj? && v.fields.Keys == responses.Keys
    ensures forall k :: k in responses ==> v.fields[k] == AnswerJson(responses[k])
  {
    Obj(map k | k in responses :: AnswerJson(responses[k]))
  }

  /** What handling one event produces: the new progress, the turns appended
      to the history in order, and the requests issued in order. */
  datatype Reaction = Reaction(progress: Progress, turns: seq<Turn>, effects: seq<Effect>)

  /** `startAssessment`: a fresh counter, the first question spoken and logged. */
  function Start(): (r: Reaction)
    ensures r.progress.current == 0 && Consistent(r.progress)
    ensures r.turns == [Turn(Trainer, FirstQuestionMessage())]
    ensures !PostsAssessment(r.effects)
    ensures r.effects == [StartListening, Speak(FirstQuestionMessage())]
  {
    assert KeysUpTo(0) == {};
    Reaction(Progress(0, map[]), [Turn(Trainer, FirstQuestionMessage())], [StartListening, Speak(FirstQuestionMessage())])
  }

  /** The assessment `onresult` handler for one spoken answer. */
  function Respond(p: Progress, response: string): (r: Reaction)
    ensures |r.turns| == 2 && r.turns[0] == Turn(User, response) && r.turns[1].speaker == Trainer
    ensures IsLikert(response) <==> r.progress.current == p.current + 1
    ensures !IsLikert(response) ==>
      r.progress == p && r.turns[1].message == InvalidAnswerMessage && r.effects == [Speak(InvalidAnswerMessage)]
    ensures IsLikert(response) && p.current + 1 < |Questions| ==>
      && r.turns[1].message == NextQuestionMessage(p.current + 1)
      && r.effects == [Speak(NextQuestionMessage(p.current + 1))]
    ensures IsLikert(response) && p.current + 1 >= |Questions| ==>
      && r.turns[1].message == CompletionMessage
      && r.effects == [StopListening, Speak(CompletionMessage), PostAssessment(ResponsesJson(r.progress.responses))]
    ensures IsLikert(response) ==>
      && QuestionKey(p.current + 1) in r.progress.responses
      && r.progress.responses[QuestionKey(p.current + 1)] == Answer(QuestionAt(p.current), response)
      && (forall key :: key in p.responses && key != QuestionKey(p.current + 1) ==>
            key in r.progress.responses && r.progress.responses[key] == p.responses[key])
      && r.progress.responses.Keys == p.responses.Keys + {QuestionKey(p.current + 1)}
    ensures PostsAssessment(r.effects) <==> IsLikert(response) && p.current + 1 >= |Questions|
    ensures !IssuesLookup(r.effects)
    ensures PostsAssessment(r.effects) ==>
      r.effects[|r.effects| - 1] == PostAssessment(ResponsesJson(r.progress.responses))
  {
    var user := Turn(User, response);
    if IsLikert(response) then
      var n := p.current + 1;
      var responses := p.responses[QuestionKey(n) := Answer(QuestionAt(p.current), response)];
      if n < |Questions| then
        var ask := NextQuestionMessage(n);
        Reaction(Progress(n, responses), [user, Turn(Trainer, ask)], [Speak(ask)])
      else
        var effects := [StopListening, Speak(CompletionMessage), PostAssessment(ResponsesJson(responses))];
        assert effects[2].PostAssessment?;
        Reaction(Progress(n, responses), [user, Turn(Trainer, CompletionMessage)], effects)
    else
      Reaction(p, [user, Turn(Trainer, InvalidAnswerMessage)], [Speak(InvalidAnswerMessage)])
  }

  /** The number a question is asked under is the number its answer is
      recorded under: the question asked after `n` accepted answers opens
      with the key the next accepted answer is stored at, and quotes the
      question text. */
  lemma AskedQuestionMatchesKey(n: nat)
    requires n < |Questions|
    ensures IsPrefix(QuestionKey(n + 1) + ": ", NextQuestionMessage(n))
    ensures Includes(NextQuestionMessage(n), Questions[n])
  {
    var head := QuestionKey(n + 1) + ": ";
    var rest := ". \n                        " + Instruction;
    assert NextQuestionMessage(n) == head + Questions[n] + rest;
    IncludesMiddle(head, Questions[n], rest);
  }

  /** The first question follows the same numbering: it opens with the key
      the first accepted answer is stored at. */
  lemma FirstQuestionMatchesKey()
    ensures IsPrefix(QuestionKey(1) + ": ", FirstQuestionMessage())
  {
    assert NatToString(1) == "1";
  }

  /** Answering keeps the recorded answers in step with the counter, and an
      accepted answer adds exactly one new entry. */
  lemma RespondKeepsConsistent(p: Progress, response: string)
    requires Consistent(p)
    ensures Consistent(Respond(p, response).progress)
    ensures IsLikert(response) ==> |Respond(p, response).progress.responses| == |p.responses| + 1
  {
    var r := Respond(p, response);
    if IsLikert(response) {
      KeysUpToNext(p.current);
      AcceptedKeyIsFresh(p);
      assert r.progress.responses.Keys == p.responses.Keys + {QuestionKey(p.current + 1)};
    } else {
      assert r.progress == p;
    }
  }

  /** Completion comes exactly at the fifth accepted answer: starting from a
      fresh assessment the counter is below five until the answer that
      finishes it, which leaves five recorded answers behind. */
  lemma FinishesAtFive(p: Progress, response: string)
    requires Consistent(p) && p.current < |Questions|
    ensures PostsAssessment(Respond(p, response).effects) <==> IsLikert(response) && p.current == 4
    ensures PostsAssessment(Respond(p, response).effects) ==>
      Respond(p, response).progress.current == 5 && |Respond(p, response).progress.responses| == 5
  {
    var r := Respond(p, response);
    if PostsAssessment(r.effects) {
      RespondKeepsConsistent(p, response);
      CountMatchesResponses(r.progress);
    }
  }

  /** Nothing stops the handler after the fifth answer: from a consistent
      state with every question answered, a further Likert answer is
      recorded under the next key with no question text (`questions[5]` is
      `undefined`), and all the answers are posted again. */
  lemma PostsAgainAfterFive(p: Progress, response: string)
    requires Consistent(p) && p.current >= |Questions| && IsLikert(response)
    ensures var r := Respond(p, response);
      && PostsAssessment(r.effects)
      && r.progress.current == p.current + 1
      && r.progress.responses[QuestionKey(p.current + 1)] == Answer(None, response)
      && |r.progress.responses| == p.current + 1
      && Consistent(r.progress)
  {
    RespondKeepsConsistent(p, response);
    CountMatchesResponses(Respond(p, response).progress);
  }
}

=== FILE: conversation.dfy ===
/** The vocabulary shared by the two browser-side machines of
    workout-app/frontend.js: transcript turns, the avatar's presence, and
    the requests the controller issues to the speech engines and the server. */
module Conversation {
  import opened Js

  /** Who a transcript turn is attributed to. */
  datatype Speaker = Trainer | User | System

  /** One entry of `conversationHistory`. The history is a sequence: its
      order is the order of appends. */
  datatype Turn = Turn(speaker: Speaker, message: string)

  /** `currentAvatarState`: the only two values workout-app/frontend.js ever
      stores. */
  datatype Presence = Listening | Talking

  /** A request the controller hands to a collaborator. Nothing here runs:
      the collaborators' answers come back as later events or parameters. */
  datatype Effect =
      /** `speak(text)`: cancel the utterance in progress, then queue `text`. */
    | Speak(text: string)
      /** `synth.cancel()` on its own. */
    | CancelSpeech
      /** `recognition.start()`. */
    | StartListening
      /** `recognition.stop()`. */
    | StopListening
      /** `POST /api/get-exercises` with body `{ muscleGroup }`. */
    | FetchExercises(muscleGroup: string)
      /** `POST /api/save-assessment` with body `{ responses }`. */
    | PostAssessment(responses: Value)

  /** The effect list issues at least one exercise lookup. */
  predicate IssuesLookup(effects: seq<Effect>) {
    exists i :: 0 <= i < |effects| && effects[i].FetchExercises?
  }

  /** The effect list posts the assessment results. */
  predicate PostsAssessment(effects: seq<Effect>) {
    exists i :: 0 <= i < |effects| && effects[i].PostAssessment?
  }

  /** `updateConversationHistory(speaker, message)`: one turn appended, the
      earlier turns kept in order. */
  function Append(history: seq<Turn>, speaker: Speaker, message: string): (h: seq<Turn>)
    ensures |h| == |history| + 1
    ensures h[..|history|] == history
    ensures h[|history|] == Turn(speaker, message)
  {
    history + [Turn(speaker, message)]
  }
}

=== FILE: dialogue.dfy ===
/** The dialogue controller of workout-app/frontend.js as a state machine.
    The page's globals `awaitingConfirmation`, `muscleGroup`,
    `conversationHistory`, `currentAvatarState` and `recognition` form one
    immutable record; every browser event is a pure transition that returns
    the next record and the requests issued to the speech engines and the
    server. The outcome of the exercise lookup is a parameter of the
    transcript event, consulted only when a lookup is actually issued. */
module Dialogue {
  import opened Wrappers
  import opened Strings
  import opened Intents
  import opened Exercises
  import opened Conversation
  import opened Assessment

  const WelcomeMessage := "Hello! I'm your workout assistant. What muscle group would you like to work on today?"
  const EndedMessage := "Conversation ended. Click 'Begin Conversation' to start again."
  const HelpMessage := "I didn't catch a specific muscle group. Please mention which area you'd like to work on: chest, back, legs, arms, shoulders, or core."
  const ProcessingMessage := "Great! Let me fetch some exercises for you."
  const FetchErrorMessage := "Sorry, there was an error fetching exercises."
  const RetryMessage := "Okay, let's try again. What muscle group would you like to work on?"
  const ClarifyMessage := "Please say 'yes' or 'no' to confirm the muscle group."

  /** The confirmation question for a recognised group: it names the group
      right after its opening words and asks for a yes or a no. */
  function ConfirmMessage(group: string): (r: string)
    ensures IsPrefix("I heard you want to work on " + group + ". Is that correct? ", r)
    ensures Includes(r, group)
    ensures Includes(r, "Please say yes or no.")
  {
    var opening := "I heard you want to work on " + group + ". Is that correct? ";
    var ask := "Please say yes or no.";
    IncludesMiddle("I heard you want to work on ", group, ". Is that correct? " + ask);
    assert "I heard you want to work on " + group + (". Is that correct? " + ask) == opening + ask;
    assert OccursAt(ask, ask, 0);
    OccursAfter(opening, ask, ask, 0);
    assert (opening + ask)[..|opening|] == opening;
    opening + ask
  }

  /** The summary spoken after a successful lookup. */
  function ExercisesMessage(group: string, exercises: seq<Exercise>): (r: string)
    ensures IsPrefix("Here are some exercises for your " + group + ": ", r)
    ensures |exercises| == 0 ==> r == "Here are some exercises for your " + group + ": "
    ensures |exercises| > 0 ==> IsPrefix("Here are some exercises for your " + group + ": " + exercises[0].name, r)
  {
    "Here are some exercises for your " + group + ": " + Join(Names(exercises), ", ")
  }

  /** Which `onresult` handler the current `recognition` object carries:
      none before the first start, the conversation's, or the assessment's
      together with the state its closure owns. */
  datatype Recognizer = Absent | ForConversation | ForAssessment(progress: Progress)

  datatype State = State(
    awaitingConfirmation: bool,
    muscleGroup: string,
    history: seq<Turn>,
    avatar: Presence,
    recognizer: Recognizer)

  /** The page as loaded: no recogniser yet, no confirmation pending, no
      group, an empty history and the avatar listening. */
  function Initial(): (r: State)
    ensures r.recognizer.Absent? && !r.awaitingConfirmation && r.muscleGroup == ""
    ensures r.history == [] && r.avatar == Listening
    ensures Valid(r)
  {
    State(false, "", [], Listening, Absent)
  }

  /** What the `POST /api/get-exercises` call amounts to for this page: a
      parsed reply whose `exercises` is a list, or anything that makes the
      `try` block throw (a network or parse error, or a reply without
      `exercises`, on which `exercises.map` throws). */
  datatype Lookup = LookupOk(exercises: seq<Exercise>) | LookupFailed

  datatype Event =
      /** The "Begin Conversation" button: `startConversation`.
          `recognizerAvailable` is false when the browser has neither
          `SpeechRecognition` nor `webkitSpeechRecognition`. */
    | BeginConversation(recognizerAvailable: bool)
      /** The "End Conversation" button: `stopConversation`. */
    | EndConversation
      /** The "Clear History" button: `clearConversationHistory`. */
    | ClearHistory
      /** The "Start Assessment" button: `startAssessment`, with the same
          availability flag. */
    | BeginAssessment(recognizerAvailable: bool)
      /** `recognition.onresult` with the lower-cased transcript, and what the
          exercise lookup would return if this event issues one. */
    | Heard(transcript: string, lookup: Lookup)
      /** `utterance.onstart` of a spoken message. */
    | UtteranceStarted
      /** `utterance.onend` of a spoken message. */
    | UtteranceEnded
      /** `recognition.onstart`. */
    | RecognitionStarted
      /** `recognition.onend`. */
    | RecognitionEnded

  /** The next state and the requests issued, in order. */
  datatype Outcome = Outcome(state: State, effects: seq<Effect>)

  /** The page's history with one turn appended. */
  function Log(s: State, speaker: Speaker, message: string): State {
    s.(history := Append(s.history, speaker, message))
  }

  /** `startConversation`: a new recogniser carrying the conversation
      handlers, started, and the welcome spoken and logged. The dialogue
      fields are left as they were. */
  function StartConversation(s: State): (r: Outcome)
    ensures r.state.recognizer == ForConversation
    ensures r.state.history == s.history + [Turn(Trainer, WelcomeMessage)]
    ensures r.state.awaitingConfirmation == s.awaitingConfirmation && r.state.muscleGroup == s.muscleGroup
    ensures r.state.avatar == s.avatar
    ensures r.effects == [StartListening, Speak(WelcomeMessage)]
  {
    Outcome(Log(s.(recognizer := ForConversation), Trainer, WelcomeMessage), [StartListening, Speak(WelcomeMessage)])
  }

  /** `stopConversation` (lines 54-63). */
  function StopConversation(s: State): (r: Outcome)
    ensures r.state.avatar == Listening
    ensures r.state.history == s.history + [Turn(System, EndedMessage)]
    ensures r.state.awaitingConfirmation == s.awaitingConfirmation
    ensures r.state.muscleGroup == s.muscleGroup
    ensures r.state.recognizer == s.recognizer
    ensures StopListening in r.effects <==> !s.recognizer.Absent?
    ensures CancelSpeech in r.effects && !IssuesLookup(r.effects)
    ensures r.effects == if s.recognizer.Absent? then [CancelSpeech] else [StopListening, CancelSpeech]
  {
    var stop := if s.recognizer.Absent? then [] else [StopListening];
    Outcome(Log(s.(avatar := Listening), System, EndedMessage), stop + [CancelSpeech])
  }

  /** `clearConversationHistory` (lines 66-72). */
  function ClearConversationHistory(s: State): (r: State)
    ensures r.history == []
    ensures r.awaitingConfirmation == s.awaitingConfirmation && r.muscleGroup == s.muscleGroup
    ensures r.avatar == s.avatar && r.recognizer == s.recognizer
  {
    s.(history := [])
  }

  /** `handleWorkoutRequest` (lines 106-124). The transcript itself is not logged. */
  function HandleWorkoutRequest(s: State, transcript: string): (r: Outcome)
    ensures FindMuscleGroup(transcript).Some? ==>
      var g := FindMuscleGroup(transcript).value;
      && r.state == s.(muscleGroup := g, awaitingConfirmation := true,
                       history := s.history + [Turn(Trainer, ConfirmMessage(g))])
      && Includes(ConfirmMessage(g), g)
      && r.effects == [Speak(ConfirmMessage(g))]
    ensures FindMuscleGroup(transcript).None? ==>
      r.state == s.(history := s.history + [Turn(Trainer, HelpMessage)]) && r.effects == [Speak(HelpMessage)]
  {
    match FindMuscleGroup(transcript)
    case Some(g) =>
      var confirm := ConfirmMessage(g);
      Outcome(Log(s.(muscleGroup := g), Trainer, confirm).(awaitingConfirmation := true), [Speak(confirm)])
    case None =>
      Outcome(Log(s, Trainer, HelpMessage), [Speak(HelpMessage)])
  }

  /** `displayExercises` (lines 162-189), reduced to what it logs and says. */
  function DisplayExercises(s: State, exercises: seq<Exercise>): Outcome {
    var message := ExercisesMessage(s.muscleGroup, exercises);
    Outcome(Log(s, Trainer, message), [Speak(message)])
  }

  /** `handleConfirmation` (lines 127-159); `lookup` is what the fetch of
      the "yes" branch returns. */
  function HandleConfirmation(s: State, transcript: string, lookup: Lookup): (r: Outcome)
    ensures r.state.muscleGroup == s.muscleGroup
    ensures r.state.avatar == s.avatar && r.state.recognizer == s.recognizer
    ensures IssuesLookup(r.effects) <==> Includes(transcript, "yes")
    ensures Includes(transcript, "yes") ==>
      && !r.state.awaitingConfirmation
      && r.effects[0] == FetchExercises(s.muscleGroup)
      && (lookup.LookupOk? ==>
            r.effects == [FetchExercises(s.muscleGroup), Speak(ExercisesMessage(s.muscleGroup, lookup.exercises))])
      && (lookup.LookupFailed? ==> r.effects == [FetchExercises(s.muscleGroup)])
      && |r.state.history| == |s.history| + 2
      && r.state.history[..|s.history| + 1] == s.history + [Turn(Trainer, ProcessingMessage)]
      && (lookup.LookupOk? ==>
            r.state.history[|s.history| + 1] == Turn(Trainer, ExercisesMessage(s.muscleGroup, lookup.exercises)))
      && (lookup.LookupFailed? ==> r.state.history[|s.history| + 1] == Turn(System, FetchErrorMessage))
    ensures !Includes(transcript, "yes") && Includes(transcript, "no") ==>
      && !r.state.awaitingConfirmation
      && r.state.history == s.history + [Turn(Trainer, RetryMessage)]
      && r.effects == [Speak(RetryMessage)]
    ensures !Includes(transcript, "yes") && !Includes(transcript, "no") ==>
      && r.state.awaitingConfirmation == s.awaitingConfirmation
      && r.state.history == s.history + [Turn(Trainer, ClarifyMessage)]
      && r.effects == [Speak(ClarifyMessage)]
  {
    match Decide(transcript)
    case Yes =>
      var fetching := Log(s.(awaitingConfirmation := false), Trainer, ProcessingMessage);
      var fetch := [FetchExercises(s.muscleGroup)];
      assert fetch[0].FetchExercises?;
      (match lookup
       case LookupOk(exercises) =>
         var shown := DisplayExercises(fetching, exercises);
         assert (fetch + shown.effects)[0].FetchExercises?;
         Outcome(shown.state, fetch + shown.effects)
       case LookupFailed =>
         Outcome(Log(fetching, System, FetchErrorMessage), fetch))
    case No =>
      Outcome(Log(s.(awaitingConfirmation := false), Trainer, RetryMessage), [Speak(RetryMessage)])
    case Unclear =>
      Outcome(Log(s, Trainer, ClarifyMessage), [Speak(ClarifyMessage)])
  }

  /** The conversation's `onresult` (lines 32-41): the flag alone picks the handler. */
  function OnConversationResult(s: State, transcript: string, lookup: Lookup): (r: Outcome)
    ensures r.state.recognizer == s.recognizer && r.state.avatar == s.avatar
    ensures s.awaitingConfirmation ==>
      r.state.muscleGroup == s.muscleGroup && (IssuesLookup(r.effects) <==> Includes(transcript, "yes"))
    ensures s.awaitingConfirmation && Includes(transcript, "yes") ==>
      && !r.state.awaitingConfirmation
      && (lookup.LookupOk? ==>
            && r.state.history == s.history + [Turn(Trainer, ProcessingMessage),
                                               Turn(Trainer, ExercisesMessage(s.muscleGroup, lookup.exercises))]
            && r.effects == [FetchExercises(s.muscleGroup), Speak(ExercisesMessage(s.muscleGroup, lookup.exercises))])
      && (lookup.LookupFailed? ==>
            && r.state.history == s.history + [Turn(Trainer, ProcessingMessage), Turn(System, FetchErrorMessage)]
            && r.effects == [FetchExercises(s.muscleGroup)])
    ensures s.awaitingConfirmation && !Includes(transcript, "yes") && Includes(transcript, "no") ==>
      && !r.state.awaitingConfirmation
      && r.state.history == s.history + [Turn(Trainer, RetryMessage)] && r.effects == [Speak(RetryMessage)]
    ensures s.awaitingConfirmation && !Includes(transcript, "yes") && !Includes(transcript, "no") ==>
      && r.state.awaitingConfirmation
      && r.state.history == s.history + [Turn(Trainer, ClarifyMessage)] && r.effects == [Speak(ClarifyMessage)]
    ensures !s.awaitingConfirmation ==>
      && !IssuesLookup(r.effects)
      && (r.state.awaitingConfirmation <==> FindMuscleGroup(transcript).Some?)
      && (FindMuscleGroup(transcript).None? ==> r.state.muscleGroup == s.muscleGroup)
    ensures !s.awaitingConfirmation && FindMuscleGroup(transcript).Some? ==>
      var g := FindMuscleGroup(transcript).value;
      && r.state.muscleGroup == g && Includes(transcript, g)
      && r.state.history == s.history + [Turn(Trainer, ConfirmMessage(g))]
      && r.effects == [Speak(ConfirmMessage(g))]
    ensures !s.awaitingConfirmation && FindMuscleGroup(transcript).None? ==>
      r.state.history == s.history + [Turn(Trainer, HelpMessage)] && r.effects == [Speak(HelpMessage)]
  {
    if s.awaitingConfirmation then HandleConfirmation(s, transcript, lookup)
    else HandleWorkoutRequest(s, transcript)
  }

  /** `startAssessment` (lines 202-279): a new recogniser with a fresh counter. */
  function StartAssessment(s: State): (r: Outcome)
    ensures r.state.recognizer.ForAssessment? && r.state.recognizer.progress.current == 0
    ensures r.state.recognizer.progress.responses == map[]
    ensures r.state.history == s.history + [Turn(Trainer, FirstQuestionMessage())]
    ensures r.state.awaitingConfirmation == s.awaitingConfirmation && r.state.muscleGroup == s.muscleGroup
    ensures r.state.avatar == s.avatar
    ensures r.effects == [StartListening, Speak(FirstQuestionMessage())]
  {
    var start := Assessment.Start();
    Outcome(s.(recognizer := ForAssessment(start.progress), history := s.history + start.turns), start.effects)
  }

  /** The assessment's `onresult` (lines 232-272). */
  function OnAssessmentResult(s: State, p: Progress, response: string): Outcome {
    var reaction := Respond(p, response);
    Outcome(s.(recognizer := ForAssessment(reaction.progress), history := s.history + reaction.turns), reaction.effects)
  }

  /** One browser event. */
  function Step(s: State, e: Event): (r: Outcome)
    ensures (e.BeginConversation? || e.BeginAssessment?) && !e.recognizerAvailable ==> r == Outcome(s, [])
    ensures e.BeginConversation? && e.recognizerAvailable ==> r == StartConversation(s)
    ensures e.BeginAssessment? && e.recognizerAvailable ==> r == StartAssessment(s)
    ensures e.EndConversation? ==> r == StopConversation(s)
    ensures e.ClearHistory? ==> r.state == s.(history := []) && r.effects == []
    ensures e.Heard? && s.recognizer.Absent? ==> r == Outcome(s, [])
    ensures e.Heard? && s.recognizer == ForConversation ==> r == OnConversationResult(s, e.transcript, e.lookup)
    ensures e.Heard? && s.recognizer.ForAssessment? ==>
      var reaction := Respond(s.recognizer.progress, e.transcript);
      && r.state == s.(recognizer := ForAssessment(reaction.progress), history := s.history + reaction.turns)
      && r.effects == reaction.effects
    ensures e.UtteranceStarted? ==> r.state == s.(avatar := Talking) && r.effects == []
    ensures e.UtteranceEnded? ==>
      r.state == s.(avatar := Listening) && (r.effects == if s.recognizer.Absent? then [] else [StartListening])
    ensures e.RecognitionStarted? ==>
      r.effects == [] && r.state == if s.recognizer.Absent? then s else s.(avatar := Listening)
    ensures e.RecognitionEnded? ==>
      r.state == s && (r.effects == if !s.recognizer.Absent? && s.avatar == Listening then [StartListening] else [])
  {
    match e
    case BeginConversation(available) => if available then StartConversation(s) else Outcome(s, [])
    case EndConversation => StopConversation(s)
    case ClearHistory => Outcome(ClearConversationHistory(s), [])
    case BeginAssessment(available) => if available then StartAssessment(s) else Outcome(s, [])
    case Heard(transcript, lookup) =>
      (match s.recognizer
       case Absent => Outcome(s, [])
       case ForConversation => OnConversationResult(s, transcript, lookup)
       case ForAssessment(p) => OnAssessmentResult(s, p, transcript))
    case UtteranceStarted => Outcome(s.(avatar := Talking), [])
    case UtteranceEnded =>
      var listening := s.(avatar := Listening);
      Outcome(listening, if listening.recognizer.Absent? then [] else [StartListening])
    // The recogniser's own events cannot fire before a recogniser exists.
    case RecognitionStarted => if s.recognizer.Absent? then Outcome(s, []) else Outcome(s.(avatar := Listening), [])
    case RecognitionEnded =>
      Outcome(s, if !s.recognizer.Absent? && s.avatar == Listening then [StartListening] else [])
  }

  /** The dialogue fields only ever hold a vocabulary group, a pending
      confirmation always has one, and an assessment in progress records
      exactly the answers it has counted. */
  ghost predicate Valid(s: State) {
    && (s.muscleGroup == "" || s.muscleGroup in MuscleGroups)
    && (s.awaitingConfirmation ==> s.muscleGroup in MuscleGroups)
    && (s.recognizer.ForAssessment? ==> Consistent(s.recognizer.progress))
  }

  lemma InitialValid()
    ensures Valid(Initial())
  {
  }

  /** Every event preserves the invariant. */
  lemma StepPreservesValid(s: State, e: Event)
    requires Valid(s)
    ensures Valid(Step(s, e).state)
  {
    if e.Heard? && s.recognizer.ForAssessment? {
      RespondKeepsConsistent(s.recognizer.progress, e.transcript);
    }
  }

  /** The confirmation step is mandatory: every exercise lookup is issued
      from a pending confirmation answered with a transcript containing
      "yes", for the pending group, which is always a vocabulary group. */
  lemma LookupOnlyAfterYes(s: State, e: Event)
    requires Valid(s)
    ensures IssuesLookup(Step(s, e).effects) ==>
      && e.Heard? && s.recognizer == ForConversation && s.awaitingConfirmation
      && Includes(e.transcript, "yes")
      && Step(s, e).effects[0] == FetchExercises(s.muscleGroup)
      && s.muscleGroup in MuscleGroups
  {
    if e.Heard? && s.recognizer.ForAssessment? {
      var r := Respond(s.recognizer.progress, e.transcript);
    }
  }

  /** The flag decides the handler: while a confirmation is pending no
      transcript can change the group, and while none is pending no
      transcript issues a lookup; it starts one exactly when it names a
      group. */
  lemma ConfirmationIsModal(s: State, transcript: string, lookup: Lookup)
    requires s.recognizer == ForConversation
    ensures var r := Step(s, Heard(transcript, lookup));
      && (s.awaitingConfirmation ==> r.state.muscleGroup == s.muscleGroup)
      && (!s.awaitingConfirmation ==>
            && !IssuesLookup(r.effects)
            && (r.state.awaitingConfirmation <==> FindMuscleGroup(transcript).Some?))
  {
  }

  /** The transcript log is append-only: every event other than "Clear
      History" keeps the existing entries as a prefix. */
  lemma HistoryAppendOnly(s: State, e: Event)
    requires !e.ClearHistory?
    ensures |s.history| <= |Step(s, e).state.history|
    ensures Step(s, e).state.history[..|s.history|] == s.history
  {
  }

  /** The summary after a successful lookup names every exercise it lists. */
  lemma SummaryNamesEveryExercise(group: string, exercises: seq<Exercise>, k: nat)
    requires k < |exercises|
    ensures Includes(ExercisesMessage(group, exercises), exercises[k].name)
  {
    var names := Names(exercises);
    JoinIncludesEach(names, ", ", k);
    var i :| OccursAt(Join(names, ", "), names[k], i);
    OccursAfter("Here are some exercises for your " + group + ": ", Join(names, ", "), names[k], i);
  }

  /** "End Conversation" does not keep the recogniser off: `stop()` makes
      the engine report the end of the session, and since the avatar has
      just been set to listening the end handler starts it again. */
  lemma StopIsFollowedByRestart(s: State)
    requires !s.recognizer.Absent?
    ensures var stopped := Step(s, EndConversation);
      && StopListening in stopped.effects
      && Step(stopped.state, RecognitionEnded).effects == [StartListening]
  {
  }

  /** Finishing the assessment does not end it. `finishAssessment` stops
      the recogniser, but the thank-you utterance's end handler sets the
      avatar to listening and starts it again, and the `onresult` handler
      still in place takes the next Likert answer: it is recorded as
      "Question 6" with no question text, and all answers are posted a
      second time. */
  lemma AssessmentResumesAfterFinish(s: State, response: string, later: string)
    requires Valid(s) && s.recognizer.ForAssessment? && s.recognizer.progress.current == 4
    requires IsLikert(response) && IsLikert(later)
    ensures var done := Step(s, Heard(response, LookupFailed));
      var resumed := Step(done.state, UtteranceEnded);
      var again := Step(resumed.state, Heard(later, LookupFailed));
      && PostsAssessment(done.effects) && StopListening in done.effects
      && resumed.effects == [StartListening]
      && PostsAssessment(again.effects)
      && again.state.recognizer.progress.current == 6
      && again.state.recognizer.progress.responses[QuestionKey(6)] == Answer(None, later)
      && |again.state.recognizer.progress.responses| == 6
  {
    var first := Respond(s.recognizer.progress, response);
    var done := Step(s, Heard(response, LookupFailed));
    assert done.state.recognizer == ForAssessment(first.progress) && done.effects == first.effects;
    assert done.effects[0] == StopListening;
    RespondKeepsConsistent(s.recognizer.progress, response);
    var resumed := Step(done.state, UtteranceEnded);
    assert resumed.state == done.state.(avatar := Listening);
    var second := Respond(first.progress, later);
    PostsAgainAfterFive(first.progress, later);
    var again := Step(resumed.state, Heard(later, LookupFailed));
    assert again.state.recognizer == ForAssessment(second.progress) && again.effects == second.effects;
  }

  /** The scenario: "i want to work out my chest", then "yes", with the
      lookup returning a bench press, ends with the trainer naming it. */
  lemma ChestScenario()
    ensures var bench := Exercise("Bench Press", "barbell", "chest");
      var s1 := Step(Step(Initial(), BeginConversation(true)).state, Heard("i want to work out my chest", LookupFailed)).state;
      var r2 := Step(s1, Heard("yes", LookupOk([bench])));
      && s1.awaitingConfirmation && s1.muscleGroup == "chest"
      && r2.effects[0] == FetchExercises("chest")
      && !r2.state.awaitingConfirmation
      && r2.state.history[|r2.state.history| - 1].speaker == Trainer
      && Includes(r2.state.history[|r2.state.history| - 1].message, "Bench Press")
  {
    var bench := Exercise("Bench Press", "barbell", "chest");
    var t := "i want to work out my chest";
    assert OccursAt(t, "chest", 22);
    ChestWins(t);
    assert OccursAt("yes", "yes", 0);
    SummaryNamesEveryExercise("chest", [bench], 0);
  }
}

=== FILE: exercises.dfy ===
/** Exercise records: the raw entries the exercise database returns and the
    three-field suggestions the server hands to the browser. */
module Exercises {

  /** One entry of the exercise database's reply; fields the server ignores
      (`bodyPart` among them) are dropped by the formatting. */
  datatype RawExercise = RawExercise(name: string, equipment: string, target: string, bodyPart: string)

  /** A suggestion as sent to the browser. */
  datatype Exercise = Exercise(name: string, equipment: string, targetMuscle: string)

  /** The reshaping `exercises.map(e => ({ name, equipment, targetMuscle: e.target }))`,
      shared verbatim by both servers. */
  function Format(raw: seq<RawExercise>): (r: seq<Exercise>)
    ensures |r| == |raw|
    ensures forall i :: 0 <= i < |raw| ==>
      r[i].name == raw[i].name && r[i].equipment == raw[i].equipment && r[i].targetMuscle == raw[i].target
    decreases |raw|
  {
    if |raw| == 0 then []
    else [Exercise(raw[0].name, raw[0].equipment, raw[0].target)] + Format(raw[1..])
  }

  /** Formatting distributes over concatenation: a reply split in two is
      formatted part by part. */
  lemma {:induction false} FormatAppend(a: seq<RawExercise>, b: seq<RawExercise>)
    ensures Format(a + b) == Format(a) + Format(b)
  {
    var l, r := Format(a + b), Format(a) + Format(b);
    assert |l| == |r|;
    forall i | 0 <= i < |l| ensures l[i] == r[i] {
      if i < |a| {
        assert (a + b)[i] == a[i];
      } else {
        assert (a + b)[i] == b[i - |a|];
      }
    }
  }

  /** `exercises.map(ex => ex.name)`. */
  function Names(xs: seq<Exercise>): (r: seq<string>)
    ensures |r| == |xs|
    ensures forall i :: 0 <= i < |xs| ==> r[i] == xs[i].name
    decreases |xs|
  {
    if |xs| == 0 then [] else [xs[0].name] + Names(xs[1..])
  }

  /** The names of the database entries, in reply order. */
  function RawNames(raw: seq<RawExercise>): seq<string> {
    seq(|raw|, i requires 0 <= i < |raw| => raw[i].name)
  }

  /** Formatting keeps every name, in order. */
  lemma FormatKeepsNames(raw: seq<RawExercise>)
    ensures Names(Format(raw)) == RawNames(raw)
  {
    assert |Names(Format(raw))| == |RawNames(raw)|;
  }
}

=== FILE: http.dfy ===
/** The JSON replies the two workout servers send, with their status codes. */
module Http {
  import opened Wrappers
  import opened Exercises
  import Js

  /** The reply bodies the handlers build. `state` is the avatar tag the
      browser switches to; replies that carry none have `None`. */
  datatype Body =
      /** `{ error, state? }` */
    | ErrorBody(error: string, state: Option<string>)
      /** `{ state?, response }`: the coaching text of the completion service. */
    | CoachBody(state: Option<string>, response: string)
      /** `{ state, exercises }` */
    | ExercisesBody(tag: string, exercises: seq<Exercise>)
      /** `{ success: true, message }` */
    | SavedBody(message: string)

  datatype Reply = Reply(status: nat, body: Body)

  /** The `state` field of a reply body, if it has one. */
  function StateTag(b: Body): Option<string> {
    match b
    case ErrorBody(_, state) => state
    case CoachBody(state, _) => state
    case ExercisesBody(state, _) => Some(state)
    case SavedBody(_) => None
  }

  /** What `axios.request` to the exercise database amounts to: its
      `response.data` as a list of entries (`None` when it is missing or
      otherwise falsy), or a thrown error. */
  datatype ExerciseDbReply = Fetched(data: Option<seq<RawExercise>>) | FetchFailed

  /** A reply, together with the muscle group the handler asked the
      exercise database about (`None` when it made no call). */
  datatype Handled = Handled(reply: Reply, lookup: Option<Js.Value>)

  const ExerciseDbError := "Failed to fetch exercises from ExerciseDB."
}

=== FILE: integration.dfy ===
/** How the browser pages read the servers' replies, and what the two sides
    guarantee together: a confirmed lookup is never rejected for a missing
    group, the trainer's summary names the database's exercises in order,
    a finished assessment is accepted, and every failed lookup leaves the
    alternative page's avatar listening. */
module Integration {
  import opened Wrappers
  import opened Strings
  import opened Js
  import opened Intents
  import opened Exercises
  import opened Http
  import opened Conversation
  import opened Assessment
  import Dialogue
  import PublicDialogue
  import Server

  /** workout-app/frontend.js reads a reply through `displayExercises(data.exercises)`:
      a reply without `exercises` makes `exercises.map` throw. */
  function DialogueLookup(reply: Reply): (l: Dialogue.Lookup)
    ensures l.LookupOk? <==> reply.body.ExercisesBody?
  {
    match reply.body
    case ExercisesBody(_, exercises) => Dialogue.LookupOk(exercises)
    case _ => Dialogue.LookupFailed
  }

  /** workout-app/public/frontend.js reads a reply's `exercises` and `state` fields. */
  function PublicFetch(reply: Reply): (o: PublicDialogue.FetchOutcome)
    ensures o.Replied? && o.state == StateTag(reply.body)
    ensures o.exercises.Some? <==> reply.body.ExercisesBody?
    ensures o.exercises.Some? ==> o.exercises.value == reply.body.exercises
  {
    match reply.body
    case ExercisesBody(tag, exercises) => PublicDialogue.Replied(Some(exercises), Some(tag))
    case _ => PublicDialogue.Replied(None, StateTag(reply.body))
  }

  /** A lookup the dialogue issues always names a vocabulary group, so the
      server's 400 branch is unreachable from the page. */
  lemma ConfirmedLookupNeverRejected(s: Dialogue.State, e: Dialogue.Event, db: ExerciseDbReply)
    requires Dialogue.Valid(s)
    requires IssuesLookup(Dialogue.Step(s, e).effects)
    ensures var g := Dialogue.Step(s, e).effects[0].muscleGroup;
      && Server.GetExercises(Str(g), db).lookup == Some(Str(g))
      && Server.GetExercises(Str(g), db).reply.status != 400
  {
    Dialogue.LookupOnlyAfterYes(s, e);
    assert s.muscleGroup != "" by {
      var k :| 0 <= k < |MuscleGroups| && MuscleGroups[k] == s.muscleGroup;
    }
  }

  /** The whole round: a "yes" to a pending confirmation asks the server,
      and the reply ends the turn with the trainer listing the database's
      exercise names in the database's order, or with the system's apology
      when the server found nothing or failed. */
  lemma ConfirmedRound(s: Dialogue.State, transcript: string, db: ExerciseDbReply)
    requires Dialogue.Valid(s) && s.recognizer == Dialogue.ForConversation && s.awaitingConfirmation
    requires Includes(transcript, "yes")
    ensures var reply := Server.GetExercises(Str(s.muscleGroup), db).reply;
      var r := Dialogue.Step(s, Dialogue.Heard(transcript, DialogueLookup(reply)));
      var last := r.state.history[|r.state.history| - 1];
      && r.effects[0] == FetchExercises(s.muscleGroup)
      && (db.Fetched? && db.data.Some? && |db.data.value| > 0 ==>
            && last.speaker == Trainer
            && last.message == Dialogue.ExercisesMessage(s.muscleGroup, Format(db.data.value))
            && Names(Format(db.data.value)) == RawNames(db.data.value))
      && (!(db.Fetched? && db.data.Some? && |db.data.value| > 0) ==>
            last == Turn(System, Dialogue.FetchErrorMessage))
  {
    assert s.muscleGroup != "" by {
      var k :| 0 <= k < |MuscleGroups| && MuscleGroups[k] == s.muscleGroup;
    }
    if db.Fetched? && db.data.Some? {
      FormatKeepsNames(db.data.value);
    }
  }

  /** Every error path of a lookup on the alternative page returns the
      avatar to listening; a success leaves it at the server's "talking". */
  lemma PublicAvatarFollowsServer(p: PublicDialogue.State, muscleGroup: Value, db: ExerciseDbReply)
    ensures var reply := Server.GetExercises(muscleGroup, db).reply;
      var r := PublicDialogue.FetchExercisesForMuscleGroup(p, PublicFetch(reply));
      && (reply.status == 200 ==> r.avatar == "talking")
      && (reply.status != 200 ==> r.avatar == "listening" && r.advice == PublicDialogue.FetchErrorAdvice)
  {
  }

  /** The answers an assessment posts always hold the answer that finished
      it, so the server's "responses are required" check never fires. */
  lemma PostedResponsesAccepted(p: Progress, response: string)
    ensures var effects := Respond(p, response).effects;
      PostsAssessment(effects) ==>
        Server.SaveAssessment(effects[|effects| - 1].responses).status == 200
  {
    var r := Respond(p, response);
    if PostsAssessment(r.effects) {
      var key := QuestionKey(p.current + 1);
      var v := ResponsesJson(r.progress.responses);
      assert key in v.fields.Keys;
      assert |v.fields.Keys| > 0;
    }
  }

  /** The results a finished assessment posts are accepted by the server. */
  lemma FinishedAssessmentAccepted(s: Dialogue.State, e: Dialogue.Event)
    ensures var effects := Dialogue.Step(s, e).effects;
      PostsAssessment(effects) ==>
        Server.SaveAssessment(effects[|effects| - 1].responses).status == 200
  {
    if e.Heard? && s.recognizer.ForAssessment? {
      PostedResponsesAccepted(s.recognizer.progress, e.transcript);
    } else if e.BeginAssessment? && e.recognizerAvailable {
      assert Dialogue.Step(s, e).effects == Assessment.Start().effects;
    }
  }
}

=== FILE: intents.dfy ===
/** Intent extraction of workout-app/frontend.js: which muscle group a
    transcript names, whether it answers yes or no, and whether an assessment
    answer is one of the five Likert phrases. Every test is a substring test,
    not a whole-word match: "score" mentions "core" and "know" says "no". */
module Intents {
  import opened Wrappers
  import opened Strings

  /** The vocabulary, in the order the controller tries it. */
  const MuscleGroups: seq<string> := ["chest", "back", "legs", "arms", "shoulders", "core"]

  /** `MuscleGroups[k]` is the first vocabulary entry the transcript contains. */
  ghost predicate FirstMention(t: string, k: int) {
    0 <= k < |MuscleGroups| && Includes(t, MuscleGroups[k])
    && forall j :: 0 <= j < k ==> !Includes(t, MuscleGroups[j])
  }

  /** The first entry from index `k` on that `t` contains. */
  function ScanGroups(t: string, k: nat): (r: Option<nat>)
    requires k <= |MuscleGroups|
    requires forall j :: 0 <= j < k ==> !Includes(t, MuscleGroups[j])
    ensures r.Some? ==> k <= r.value && FirstMention(t, r.value)
    ensures r.None? ==> forall j :: 0 <= j < |MuscleGroups| ==> !Includes(t, MuscleGroups[j])
    decreases |MuscleGroups| - k
  {
    if k == |MuscleGroups| then None
    else if Includes(t, MuscleGroups[k]) then Some(k)
    else ScanGroups(t, k + 1)
  }

  /** The loop at workout-app/frontend.js:108-118: the first group in
      vocabulary order that occurs anywhere in the transcript. */
  function FindMuscleGroup(t: string): (r: Option<string>)
    ensures r.None? <==> forall j :: 0 <= j < |MuscleGroups| ==> !Includes(t, MuscleGroups[j])
    ensures forall k :: FirstMention(t, k) ==> r == Some(MuscleGroups[k])
    ensures r.Some? ==> r.value in MuscleGroups && Includes(t, r.value)
  {
    match ScanGroups(t, 0)
    case Some(k) =>
      assert forall k' :: FirstMention(t, k') ==> k' == k by {
        forall k' | FirstMention(t, k') ensures k' == k {
          FirstMentionUnique(t, k, k');
        }
      }
      Some(MuscleGroups[k])
    case None => None
  }

  /** At most one index is the first mention. */
  lemma FirstMentionUnique(t: string, k: int, k': int)
    requires FirstMention(t, k) && FirstMention(t, k')
    ensures k == k'
  {
  }

  /** Position in the transcript does not matter, vocabulary order does:
      whenever "chest" is mentioned at all, the group is chest. */
  lemma ChestWins(t: string)
    requires Includes(t, "chest")
    ensures FindMuscleGroup(t) == Some("chest")
  {
    assert FirstMention(t, 0);
  }

  /** "arms and chest" names chest, although "arms" comes first in it. */
  lemma ArmsAndChestIsChest()
    ensures FindMuscleGroup("arms and chest") == Some("chest")
  {
    assert OccursAt("arms and chest", "chest", 9);
    ChestWins("arms and chest");
  }

  /** The answer to the confirmation question. */
  datatype Decision = Yes | No | Unclear

  /** workout-app/frontend.js:128-158: "yes" is checked before "no". */
  function Decide(t: string): (d: Decision)
    ensures d == Yes <==> Includes(t, "yes")
    ensures d == No <==> !Includes(t, "yes") && Includes(t, "no")
    ensures d == Unclear <==> !Includes(t, "yes") && !Includes(t, "no")
  {
    if Includes(t, "yes") then Yes
    else if Includes(t, "no") then No
    else Unclear
  }

  /** The five phrases the assessment accepts, checked in the order the handler lists them. */
  const LikertPhrases: seq<string> := ["strongly agree", "agree", "neutral", "disagree", "strongly disagree"]

  /** workout-app/frontend.js:238-242: the answer contains one of the phrases. */
  predicate IsLikert(t: string)
    ensures Includes(t, "agree") ==> IsLikert(t)
    ensures Includes(t, "neutral") ==> IsLikert(t)
  {
    assert LikertPhrases[1] == "agree" && LikertPhrases[2] == "neutral";
    exists k :: 0 <= k < |LikertPhrases| && Includes(t, LikertPhrases[k])
  }

  /** The five phrases reduce to two: every one of them contains "agree"
      except "neutral". */
  lemma {:induction false} LikertReduces(t: string)
    ensures IsLikert(t) <==> Includes(t, "agree") || Includes(t, "neutral")
  {
    if Includes(t, "agree") {
      assert Includes(t, LikertPhrases[1]);
    }
    if Includes(t, "neutral") {
      assert Includes(t, LikertPhrases[2]);
    }
    if IsLikert(t) {
      var k :| 0 <= k < |LikertPhrases| && Includes(t, LikertPhrases[k]);
      if k == 0 {
        assert OccursAt("strongly agree", "agree", 9);
        IncludesTransitive(t, "strongly agree", "agree");
      } else if k == 3 {
        assert OccursAt("disagree", "agree", 3);
        IncludesTransitive(t, "disagree", "agree");
      } else if k == 4 {
        assert OccursAt("strongly disagree", "agree", 12);
        IncludesTransitive(t, "strongly disagree", "agree");
      }
    }
  }
}

=== FILE: js.dfy ===
/** The JSON values that reach the HTTP handlers through `req.body`, with the
    JavaScript truthiness rules the handlers branch on. */
module Js {

  /** A JSON value as seen by JavaScript after parsing; `Undefined` stands for
      a missing property. Numbers are integers in this model. */
  datatype Value =
    | Undefined
    | Null
    | Bool(b: bool)
    | Num(n: int)
    | Str(s: string)
    | Arr(items: seq<Value>)
    | Obj(fields: map<string, Value>)

  /** JavaScript truthiness: `undefined`, `null`, `false`, `0` and `""` are
      falsy; every array and object, even an empty one, is truthy. */
  predicate Truthy(v: Value)
    ensures v.Arr? || v.Obj? ==> Truthy(v)
    ensures v.Undefined? || v.Null? ==> !Truthy(v)
  {
    match v
    case Undefined => false
    case Null => false
    case Bool(b) => b
    case Num(n) => n != 0
    case Str(s) => s != ""
    case Arr(_) => true
    case Obj(_) => true
  }

  /** The seven falsy values of JSON-parsed input, listed outright: a value
      is falsy exactly when it is one of them. */
  lemma FalsyValues(v: Value)
    ensures !Truthy(v) <==> v in {Undefined, Null, Bool(false), Num(0), Str("")}
  {
  }

  /** The expression `a || b`: the left operand when it is truthy, the
      right one otherwise; truthy when either operand is. */
  function Or(a: Value, b: Value): (r: Value)
    ensures Truthy(a) ==> r == a
    ensures !Truthy(a) ==> r == b
    ensures Truthy(r) <==> Truthy(a) || Truthy(b)
  {
    if Truthy(a) then a else b
  }

  /** Property access `o.key` on an object: `undefined` when absent. */
  function Get(o: map<string, Value>, key: string): (r: Value)
    ensures key in o ==> r == o[key]
    ensures key !in o ==> r == Undefined && !Truthy(r)
  {
    if key in o then o[key] else Undefined
  }

  /** Reading a property after assigning it gives the assigned value, and
      assigning one property leaves every other property's value alone. */
  lemma GetAfterSet(o: map<string, Value>, key: string, v: Value, other: string)
    ensures Get(o[key := v], key) == v
    ensures other != key ==> Get(o[key := v], other) == Get(o, other)
  {
  }

  /** `Object.keys(v).length` for a value that is not `null` or `undefined`
      (on those two JavaScript throws, and the handlers never reach it). */
  function KeyCount(v: Value): (r: nat)
    ensures v.Obj? ==> r == |v.fields.Keys| && (r == 0 <==> v.fields == map[])
    ensures v.Arr? ==> r == |v.items|
    ensures v.Str? ==> r == |v.s|
    ensures v.Bool? || v.Num? ==> r == 0
  {
    match v
    case Str(s) => |s|
    case Arr(items) => |items|
    case Obj(fields) => |fields|
    case _ => 0
  }
}

=== FILE: profiles.dfy ===
/** The in-memory profile store and the `/api/create-workout` handler. Both
    workout servers (workout-app/server.js and
    mohan-kolla.github.io/workout-app/server.js) define `updateUserProfile`
    and the create-workout decisions identically, so they are modelled once. */
module Profiles {
  import opened Wrappers
  import opened Js
  import opened Http

  /** One user's profile: a plain object. */
  type Profile = map<string, Value>

  /** `userProfiles`, keyed by user id. */
  type Store = map<string, Profile>

  /** `userProfiles[userId] || {}`: a stored profile is an object, hence
      truthy, so the fallback applies exactly when there is none. */
  function ProfileOf(store: Store, userId: string): (p: Profile)
    ensures userId in store ==> p == store[userId]
    ensures userId !in store ==> p == map[]
  {
    if userId in store then store[userId] else map[]
  }

  /** `updateUserProfile(userId, data)`: `{ ...old, ...data }`, a
      right-biased shallow merge into the user's profile, which starts empty
      when absent. */
  function UpdateUserProfile(store: Store, userId: string, data: Profile): (r: Store)
    ensures r.Keys == store.Keys + {userId}
    ensures forall u :: u in store && u != userId ==> r[u] == store[u]
    ensures r[userId].Keys == ProfileOf(store, userId).Keys + data.Keys
    ensures forall k :: k in data ==> r[userId][k] == data[k]
    ensures forall k :: k in ProfileOf(store, userId) && k !in data ==> r[userId][k] == ProfileOf(store, userId)[k]
  {
    store[userId := ProfileOf(store, userId) + data]
  }

  /** Merging the same data twice is merging it once. */
  lemma UpdateIdempotent(store: Store, userId: string, data: Profile)
    ensures UpdateUserProfile(UpdateUserProfile(store, userId, data), userId, data)
         == UpdateUserProfile(store, userId, data)
  {
    var once := UpdateUserProfile(store, userId, data);
    assert ProfileOf(once, userId) + data == ProfileOf(once, userId);
  }

  /** Two merges in a row are one merge of the combined data, later keys
      winning. */
  lemma UpdateTwice(store: Store, userId: string, first: Profile, second: Profile)
    ensures UpdateUserProfile(UpdateUserProfile(store, userId, first), userId, second)
         == UpdateUserProfile(store, userId, first + second)
  {
    var once := UpdateUserProfile(store, userId, first);
    assert ProfileOf(once, userId) + second == ProfileOf(store, userId) + (first + second);
  }

  /** What the completion call amounts to: the text of the first choice, or
      anything that makes the `try` block throw. */
  datatype Completion = Completed(content: string) | CompletionFailed

  /** The goal and challenge the prompt to the completion service is built from. */
  datatype Prompt = Prompt(goal: Value, challenges: Value)

  datatype WorkoutResult = WorkoutResult(store: Store, prompt: Prompt, reply: Reply)

  const DefaultGoal := Str("get fit")
  const DefaultChallenge := Str("consistency")
  const WorkoutError := "Failed to process the workout program."

  /** The store after the goal step of create-workout: the goal is recorded
      only when truthy. */
  function RecordGoal(store: Store, userId: string, fitnessGoal: Value): (r: Store)
    ensures !Truthy(fitnessGoal) ==> r == store
    ensures Truthy(fitnessGoal) ==>
      && r.Keys == store.Keys + {userId}
      && Get(r[userId], "fitnessGoal") == fitnessGoal
      && r[userId].Keys == ProfileOf(store, userId).Keys + {"fitnessGoal"}
      && (forall k :: k in ProfileOf(store, userId) && k != "fitnessGoal" ==> r[userId][k] == ProfileOf(store, userId)[k])
      && (forall u :: u in store && u != userId ==> r[u] == store[u])
  {
    if Truthy(fitnessGoal) then UpdateUserProfile(store, userId, map["fitnessGoal" := fitnessGoal]) else store
  }

  /** `POST /api/create-workout` with body fields `userId`, `fitnessGoal`
      and `userResponse`, and what the completion call returns. */
  function CreateWorkout(store: Store, userId: string, fitnessGoal: Value, userResponse: Value,
                         completion: Completion): (r: WorkoutResult)
    ensures Truthy(r.prompt.goal) && Truthy(r.prompt.challenges)
    ensures Truthy(fitnessGoal) ==> r.prompt.goal == fitnessGoal
    ensures !Truthy(fitnessGoal) ==>
      r.prompt.goal == Or(Get(ProfileOf(store, userId), "fitnessGoal"), DefaultGoal)
    ensures r.prompt.challenges == Or(Get(ProfileOf(store, userId), "challenges"), DefaultChallenge)
    ensures forall u :: u != userId ==> (u in r.store <==> u in store)
    ensures forall u :: u in store && u != userId ==> r.store[u] == store[u]
    ensures Truthy(fitnessGoal) ==> Get(ProfileOf(r.store, userId), "fitnessGoal") == fitnessGoal
    ensures completion.Completed? && Truthy(userResponse) ==>
      && Get(ProfileOf(r.store, userId), "userResponse") == userResponse
      && r.store == UpdateUserProfile(RecordGoal(store, userId, fitnessGoal), userId, map["userResponse" := userResponse])
    ensures completion.CompletionFailed? || !Truthy(userResponse) ==>
      r.store == RecordGoal(store, userId, fitnessGoal)
    ensures completion.Completed? ==> r.reply == Reply(200, CoachBody(Some("talking"), completion.content))
    ensures completion.CompletionFailed? ==> r.reply == Reply(500, ErrorBody(WorkoutError, Some("listening")))
  {
    var withGoal := RecordGoal(store, userId, fitnessGoal);
    var profile := ProfileOf(withGoal, userId);
    var prompt := Prompt(Or(Get(profile, "fitnessGoal"), DefaultGoal), Or(Get(profile, "challenges"), DefaultChallenge));
    match completion
    case Completed(content) =>
      var stored := if Truthy(userResponse) then UpdateUserProfile(withGoal, userId, map["userResponse" := userResponse]) else withGoal;
      WorkoutResult(stored, prompt, Reply(200, CoachBody(Some("talking"), content)))
    case CompletionFailed =>
      WorkoutResult(withGoal, prompt, Reply(500, ErrorBody(WorkoutError, Some("listening"))))
  }
}

=== FILE: public_dialogue.dfy ===
/** The alternative controller of workout-app/public/frontend.js: a guarded
    avatar setter that also drives the status display, a regular-expression
    request parser, a reset, and the handling of the exercise lookup's
    reply. The history, the flag and the group are globals this file shares
    with the page; `updateConversationHistory` is taken to append one turn,
    as it does in workout-app/frontend.js. */
module PublicDialogue {
  import opened Wrappers
  import opened Strings
  import opened Exercises
  import opened Conversation

  /** The avatar image, its alternative text, the status line and the
      loader's visibility. */
  datatype Display = Display(image: string, alt: string, status: string, loaderVisible: bool)

  const ListeningDisplay := Display("listening.png", "Listening", "Listening...", false)
  const TalkingDisplay := Display("talking.png", "Talking", "Talking...", true)

  const ConfirmPrefix := "You want to workout your "
  const ConfirmSuffix := ", is that correct? Please say 'yes' or 'no'."
  const ApologyMessage := "I'm sorry, I didn't catch that. Can you specify which muscle group you want to work on? For example, say \"Workout my biceps.\""
  const ReadyMessage := "Ready to start a new conversation!"
  const FetchErrorAdvice := "An error occurred while fetching exercises."

  /** The confirmation question for an extracted group: the group follows
      the opening words verbatim, and the question ends by asking for a yes
      or a no. */
  function ConfirmMessage(group: string): (r: string)
    ensures IsPrefix(ConfirmPrefix + group, r)
    ensures Includes(r, group)
    ensures |r| == |ConfirmPrefix| + |group| + |ConfirmSuffix| && r[|ConfirmPrefix| + |group|..] == ConfirmSuffix
  {
    IncludesMiddle(ConfirmPrefix, group, ConfirmSuffix);
    var r := ConfirmPrefix + group + ConfirmSuffix;
    assert r[..|ConfirmPrefix + group|] == ConfirmPrefix + group;
    r
  }

  /** The page's state. `avatar` is any string: the server's `state` field
      is stored as received. `advice` is the advice panel's text and `table`
      the exercises on display. */
  datatype State = State(
    awaitingConfirmation: bool,
    muscleGroup: string,
    history: seq<Turn>,
    avatar: string,
    display: Display,
    advice: string,
    table: seq<Exercise>)

  /** `setAvatarState` (lines 60-80). */
  function SetAvatarState(s: State, next: string): (r: State)
    ensures r.avatar == next
    ensures s.avatar == next ==> r == s
    ensures s.avatar != next && next == "listening" ==> r.display == ListeningDisplay
    ensures s.avatar != next && next == "talking" ==> r.display == TalkingDisplay
    ensures next != "listening" && next != "talking" ==> r.display == s.display
    ensures r == s.(avatar := r.avatar, display := r.display)
  {
    if s.avatar == next then s
    else if next == "listening" then s.(display := ListeningDisplay, avatar := next)
    else if next == "talking" then s.(display := TalkingDisplay, avatar := next)
    else s.(avatar := next)
  }

  /** Setting the same state twice is the same as setting it once. */
  lemma SetAvatarStateIdempotent(s: State, next: string)
    ensures SetAvatarState(SetAvatarState(s, next), next) == SetAvatarState(s, next)
  {
  }

  /** The line terminators JavaScript's `.` does not match. */
  predicate IsLineTerminator(c: char) {
    c == '\n' || c == '\r' || c == '\U{2028}' || c == '\U{2029}'
  }

  /** What the greedy `(.*)` captures at the start of `t`: everything up to
      the first line terminator. */
  function RestOfLine(t: string): (r: string)
    ensures IsPrefix(r, t)
    ensures forall i :: 0 <= i < |r| ==> !IsLineTerminator(r[i])
    ensures |r| < |t| ==> IsLineTerminator(t[|r|])
    decreases |t|
  {
    if |t| == 0 || IsLineTerminator(t[0]) then "" else [t[0]] + RestOfLine(t[1..])
  }

  /** A line without terminators is captured whole. */
  lemma RestOfLineWhole(t: string)
    requires forall i :: 0 <= i < |t| ==> !IsLineTerminator(t[i])
    ensures RestOfLine(t) == t
  {
    var r := RestOfLine(t);
    if |r| < |t| {
      assert IsLineTerminator(t[|r|]);
    }
  }

  /** The alternatives of `(?:workout|train|exercise) my `, in order. */
  const Keywords: seq<string> := ["workout my ", "train my ", "exercise my "]

  /** The alternative that matches at position `i`, tried in order. */
  function KeywordAt(s: string, i: nat): Option<string>
    requires i <= |s|
  {
    if IsPrefix(Keywords[0], s[i..]) then Some(Keywords[0])
    else if IsPrefix(Keywords[1], s[i..]) then Some(Keywords[1])
    else if IsPrefix(Keywords[2], s[i..]) then Some(Keywords[2])
    else None
  }

  /** `i` is where the regular expression's leftmost match starts. */
  ghost predicate Leftmost(s: string, i: int) {
    0 <= i <= |s| && KeywordAt(s, i).Some?
    && forall j :: 0 <= j < i ==> KeywordAt(s, j).None?
  }

  /** The capture of a match that starts at `i`. */
  function CaptureAt(s: string, i: nat): string
    requires i <= |s| && KeywordAt(s, i).Some?
  {
    RestOfLine(s[i + |KeywordAt(s, i).value|..])
  }

  /** The first position from `from` on where an alternative matches. */
  function FirstMatch(s: string, from: nat): (r: Option<nat>)
    requires from <= |s| + 1
    requires forall j :: 0 <= j < from && j <= |s| ==> KeywordAt(s, j).None?
    ensures r.Some? ==> Leftmost(s, r.value)
    ensures r.None? ==> forall j :: 0 <= j <= |s| ==> KeywordAt(s, j).None?
    decreases |s| + 1 - from
  {
    if from > |s| then None
    else if KeywordAt(s, from).Some? then Some(from)
    else FirstMatch(s, from + 1)
  }

  /** At most one position is the leftmost match. */
  lemma LeftmostUnique(s: string, i: int, j: int)
    requires Leftmost(s, i) && Leftmost(s, j)
    ensures i == j
  {
  }

  /** `request.match(/(?:workout|train|exercise) my (.*)/)?.[1]`: the rest
      of the line after the leftmost "workout my ", "train my " or
      "exercise my ", with no word boundary; `None` when nothing matches. */
  function Extract(request: string): (r: Option<string>)
    ensures r.None? <==> forall i :: 0 <= i <= |request| ==> KeywordAt(request, i).None?
    ensures forall i :: Leftmost(request, i) ==> r == Some(CaptureAt(request, i))
  {
    match FirstMatch(request, 0)
    case Some(i) =>
      assert forall j :: Leftmost(request, j) ==> j == i by {
        forall j | Leftmost(request, j) ensures j == i {
          LeftmostUnique(request, i, j);
        }
      }
      Some(CaptureAt(request, i))
    case None => None
  }

  /** Phrasing a request with any of the three keywords and a group on one
      line, then extracting, gives the group back. */
  lemma ExtractRoundTrip(k: nat, group: string)
    requires k < |Keywords|
    requires forall i :: 0 <= i < |group| ==> !IsLineTerminator(group[i])
    ensures Extract(Keywords[k] + group) == Some(group)
  {
    var s := Keywords[k] + group;
    assert s[0..] == s;
    assert s[..|Keywords[k]|] == Keywords[k];
    forall j | 0 <= j < k
      ensures !IsPrefix(Keywords[j], s[0..])
    {
      assert s[0] == Keywords[k][0] != Keywords[j][0];
    }
    assert KeywordAt(s, 0) == Some(Keywords[k]);
    assert Leftmost(s, 0);
    assert s[|Keywords[k]|..] == group;
    RestOfLineWhole(group);
  }

  /** One differing character rules out a prefix. */
  lemma NotPrefixAt(p: string, t: string, j: nat)
    requires j < |p| && j < |t| && p[j] != t[j]
    ensures !IsPrefix(p, t)
  {
    if |p| <= |t| {
      assert t[..|p|][j] != p[j];
    }
  }

  /** No alternative starts at `i` when the first two characters there
      begin none of "wo", "tr" and "ex". */
  lemma NoKeywordAt(s: string, i: nat)
    requires i + 1 < |s|
    requires s[i] != 'w' || s[i + 1] != 'o'
    requires s[i] != 't' || s[i + 1] != 'r'
    requires s[i] != 'e' || s[i + 1] != 'x'
    ensures KeywordAt(s, i).None?
  {
    var t := s[i..];
    assert t[0] == s[i] && t[1] == s[i + 1];
    if s[i] != 'w' { NotPrefixAt(Keywords[0], t, 0); } else { NotPrefixAt(Keywords[0], t, 1); }
    if s[i] != 't' { NotPrefixAt(Keywords[1], t, 0); } else { NotPrefixAt(Keywords[1], t, 1); }
    if s[i] != 'e' { NotPrefixAt(Keywords[2], t, 0); } else { NotPrefixAt(Keywords[2], t, 1); }
  }

  /** There is no word boundary: "retrain my legs" asks for legs. */
  lemma RetrainMyLegs()
    ensures Extract("retrain my legs") == Some("legs")
  {
    var s := "retrain my legs";
    NoKeywordAt(s, 0);
    NoKeywordAt(s, 1);
    assert s[2..][..|Keywords[1]|] == Keywords[1];
    assert KeywordAt(s, 2) == Some(Keywords[1]);
    assert Leftmost(s, 2);
    assert s[2 + |Keywords[1]|..] == "legs";
    RestOfLineWhole("legs");
  }

  /** The page's history with one turn appended. */
  function Log(s: State, speaker: Speaker, message: string): State {
    s.(history := Append(s.history, speaker, message))
  }

  /** `handleWorkoutRequest` (lines 32-54). An empty capture is falsy and
      counts as no match. */
  function HandleWorkoutRequest(s: State, request: string): (r: State)
    ensures var c := Extract(request);
      c.Some? && c.value != "" ==>
        && r.muscleGroup == c.value && r.awaitingConfirmation
        && r.history == s.history + [Turn(User, request), Turn(Trainer, ConfirmMessage(c.value))]
        && r.avatar == "listening" && r.display == ListeningDisplay
        && r.advice == s.advice && r.table == s.table
    ensures var c := Extract(request);
      !(c.Some? && c.value != "") && !s.awaitingConfirmation ==>
        && r.muscleGroup == s.muscleGroup && !r.awaitingConfirmation
        && r.history == s.history + [Turn(User, request), Turn(Trainer, ApologyMessage)]
        && r.avatar == "listening"
        && r.advice == s.advice && r.table == s.table
    ensures var c := Extract(request);
      !(c.Some? && c.value != "") && s.awaitingConfirmation ==> r == s
  {
    var capture := Extract(request);
    if capture.Some? && capture.value != "" then
      var heard := Log(s.(muscleGroup := capture.value), User, request);
      var talking := SetAvatarState(heard, "talking");
      var asked := Log(talking, Trainer, ConfirmMessage(capture.value)).(awaitingConfirmation := true);
      SetAvatarState(asked, "listening")
    else if !s.awaitingConfirmation then
      SetAvatarState(Log(Log(s, User, request), Trainer, ApologyMessage), "listening")
    else
      s
  }

  /** `resetState` (lines 83-95): the history is kept, one entry longer. */
  function ResetState(s: State): (r: State)
    ensures !r.awaitingConfirmation && r.muscleGroup == ""
    ensures r.history == s.history + [Turn(Trainer, ReadyMessage)]
    ensures r.avatar == "listening" && r.table == [] && r.advice == s.advice
  {
    var cleared := Log(s.(awaitingConfirmation := false, muscleGroup := ""), Trainer, ReadyMessage);
    SetAvatarState(cleared.(table := []), "listening")
  }

  /** A second reset changes nothing but the log: it only appends one more
      ready message. */
  lemma ResetTwice(s: State)
    ensures var once := ResetState(s);
      ResetState(once) == once.(history := once.history + [Turn(Trainer, ReadyMessage)])
  {
  }

  /** What `fetch` and `response.json()` deliver: the reply's `exercises`
      and `state` fields when present, or a failure (network error,
      unparsable or null body). */
  datatype FetchOutcome = Replied(exercises: Option<seq<Exercise>>, state: Option<string>) | FetchFailed

  /** `data.state || "listening"`. */
  function StateOrListening(state: Option<string>): (r: string)
    ensures r != ""
    ensures state.Some? && state.value != "" ==> r == state.value
    ensures state.None? || state.value == "" ==> r == "listening"
  {
    if state.Some? && state.value != "" then state.value else "listening"
  }

  /** The reply handling of `fetchExercisesForMuscleGroup` (lines 2-29). An
      empty list is truthy and is displayed. */
  function FetchExercisesForMuscleGroup(s: State, outcome: FetchOutcome): (r: State)
    ensures r.history == s.history && r.muscleGroup == s.muscleGroup
    ensures r.awaitingConfirmation == s.awaitingConfirmation
    ensures outcome.FetchFailed? || outcome.exercises.None? ==>
      r.avatar == "listening" && r.advice == FetchErrorAdvice && r.table == s.table
    ensures outcome.Replied? && outcome.exercises.Some? ==>
      && r.table == outcome.exercises.value && r.advice == s.advice
      && (outcome.state.Some? && outcome.state.value != "" ==> r.avatar == outcome.state.value)
      && (outcome.state.None? || outcome.state.value == "" ==> r.avatar == "listening")
  {
    match outcome
    case Replied(Some(exercises), state) =>
      SetAvatarState(s, StateOrListening(state)).(table := exercises)
    case _ =>
      SetAvatarState(s.(advice := FetchErrorAdvice), "listening")
  }
}

=== FILE: server.dfy ===
/** The request handlers of workout-app/server.js that decide something:
    the validated exercise lookup and the assessment intake. The profile
    store and create-workout are in `Profiles`; this server has no route
    that records a challenge. */
module Server {
  import opened Wrappers
  import opened Js
  import opened Exercises
  import opened Http
  import opened Profiles

  const MissingGroupError := "Muscle group is required."
  const NoExercisesError := "No exercises found for the specified muscle group."
  const MissingResponsesError := "Assessment responses are required."
  const SavedMessage := "Assessment saved successfully."

  /** `POST /api/get-exercises` (lines 117-152): 400 without a group and
      without calling the database, 404 on an empty or missing result, 500
      when the call throws, 200 with the reshaped list otherwise. */
  function GetExercises(muscleGroup: Value, db: ExerciseDbReply): (r: Handled)
    ensures !Truthy(muscleGroup) ==> r == Handled(Reply(400, ErrorBody(MissingGroupError, None)), None)
    ensures Truthy(muscleGroup) ==> r.lookup == Some(muscleGroup)
    ensures r.reply.status == 404 <==>
      Truthy(muscleGroup) && db.Fetched? && (db.data.None? || |db.data.value| == 0)
    ensures r.reply.status == 500 <==> Truthy(muscleGroup) && db.FetchFailed?
    ensures r.reply.status == 200 <==>
      Truthy(muscleGroup) && db.Fetched? && db.data.Some? && |db.data.value| > 0
    ensures r.reply.status == 200 ==> r.reply.body == ExercisesBody("talking", Format(db.data.value))
    ensures r.reply.status == 404 ==> r.reply.body == ErrorBody(NoExercisesError, None)
    ensures r.reply.status == 500 ==> r.reply.body == ErrorBody(ExerciseDbError, Some("listening"))
  {
    if !Truthy(muscleGroup) then
      Handled(Reply(400, ErrorBody(MissingGroupError, None)), None)
    else
      var reply :=
        match db
        case FetchFailed => Reply(500, ErrorBody(ExerciseDbError, Some("listening")))
        case Fetched(data) =>
          if data.None? || |data.value| == 0 then Reply(404, ErrorBody(NoExercisesError, None))
          else Reply(200, ExercisesBody("talking", Format(data.value)));
      Handled(reply, Some(muscleGroup))
  }

  /** `POST /api/save-assessment` (lines 155-169): nothing is stored; the
      reply only checks that `responses` is present and has a key. */
  function SaveAssessment(responses: Value): (r: Reply)
    ensures r.status == 400 <==> !Truthy(responses) || KeyCount(responses) == 0
    ensures r.status == 200 <==> Truthy(responses) && KeyCount(responses) > 0
    ensures r.status == 400 ==> r.body == ErrorBody(MissingResponsesError, None)
    ensures r.status == 200 ==> r.body == SavedBody(SavedMessage)
  {
    if !Truthy(responses) || KeyCount(responses) == 0 then Reply(400, ErrorBody(MissingResponsesError, None))
    else Reply(200, SavedBody(SavedMessage))
  }

  /** The browser's avatar follows the reply: every success of this server
      tags it "talking", every server-side failure "listening", and the
      request errors (400, 404) carry no tag. */
  lemma ReplyTagsFollowStatus(muscleGroup: Value, db: ExerciseDbReply, store: Store, userId: string,
                              fitnessGoal: Value, userResponse: Value, completion: Completion)
    ensures var g := GetExercises(muscleGroup, db).reply;
      && (g.status == 200 ==> StateTag(g.body) == Some("talking"))
      && (g.status == 500 ==> StateTag(g.body) == Some("listening"))
      && (g.status == 400 || g.status == 404 ==> StateTag(g.body) == None)
    ensures var w := CreateWorkout(store, userId, fitnessGoal, userResponse, completion).reply;
      && (w.status == 200 ==> StateTag(w.body) == Some("talking"))
      && (w.status == 500 ==> StateTag(w.body) == Some("listening"))
  {
  }

  /** No profile holds a challenge. */
  ghost predicate NoChallenges(store: Store) {
    forall u :: u in store ==> "challenges" !in store[u]
  }

  /** Without an update-challenges route the challenge in every prompt of
      this server is the default "consistency". */
  lemma ChallengeAlwaysDefault(store: Store, userId: string, fitnessGoal: Value, userResponse: Value,
                               completion: Completion)
    requires NoChallenges(store)
    ensures var r := CreateWorkout(store, userId, fitnessGoal, userResponse, completion);
      NoChallenges(r.store) && r.prompt.challenges == DefaultChallenge
  {
    var r := CreateWorkout(store, userId, fitnessGoal, userResponse, completion);
    var withGoal := RecordGoal(store, userId, fitnessGoal);
    assert NoChallenges(withGoal);
    forall u | u in r.store ensures "challenges" !in r.store[u] {
      if u != userId {
        assert r.store[u] == store[u];
      }
    }
  }
}

=== FILE: site_server.dfy ===
/** The request handlers of mohan-kolla.github.io/workout-app/server.js
    that differ from the other server: an exercise lookup without any
    validation, and the update-challenges route. The profile store and
    create-workout are in `Profiles`. */
module SiteServer {
  import opened Wrappers
  import opened Js
  import opened Exercises
  import opened Http
  import opened Profiles
  import Server

  const ChallengeError := "Failed to process the challenge update."

  /** `POST /api/get-exercises` (lines 118-148): the database is always
      asked, even for a missing group; an empty result is a success, and a
      missing one makes `exercises.map` throw, which is reported as 500. */
  function GetExercises(muscleGroup: Value, db: ExerciseDbReply): (r: Handled)
    ensures r.lookup == Some(muscleGroup)
    ensures db.Fetched? && db.data.Some? ==>
      r.reply == Reply(200, ExercisesBody("talking", Format(db.data.value)))
    ensures db.FetchFailed? || db.data.None? ==>
      r.reply == Reply(500, ErrorBody(ExerciseDbError, Some("listening")))
  {
    match db
    case Fetched(Some(raw)) =>
      Handled(Reply(200, ExercisesBody("talking", Format(raw))), Some(muscleGroup))
    case _ =>
      Handled(Reply(500, ErrorBody(ExerciseDbError, Some("listening"))), Some(muscleGroup))
  }

  /** The two servers answer a lookup alike when the group is given and the
      database either fails or returns entries. They differ where only the
      other server validates: a missing group (400 there), an empty result
      (404 there, an empty success here) and a missing result (404 there,
      500 here). */
  lemma LookupsAgreeWhenValid(muscleGroup: Value, db: ExerciseDbReply)
    ensures Truthy(muscleGroup) && (db.FetchFailed? || (db.data.Some? && |db.data.value| > 0)) ==>
      GetExercises(muscleGroup, db) == Server.GetExercises(muscleGroup, db)
    ensures Truthy(muscleGroup) && db == Fetched(Some([])) ==>
      GetExercises(muscleGroup, db).reply == Reply(200, ExercisesBody("talking", []))
      && Server.GetExercises(muscleGroup, db).reply.status == 404
    ensures Truthy(muscleGroup) && db == Fetched(None) ==>
      GetExercises(muscleGroup, db).reply.status == 500
      && Server.GetExercises(muscleGroup, db).reply.status == 404
    ensures !Truthy(muscleGroup) ==>
      GetExercises(muscleGroup, db).lookup == Some(muscleGroup)
      && Server.GetExercises(muscleGroup, db).lookup == None
  {
  }

  datatype ChallengeResult = ChallengeResult(store: Store, reply: Reply)

  /** `POST /api/update-challenges` (lines 152-178): the challenge is merged
      into the profile before the completion call, so it stays whatever the
      call does. */
  function UpdateChallenges(store: Store, userId: string, challengeResponse: Value,
                            completion: Completion): (r: ChallengeResult)
    ensures userId in r.store && Get(r.store[userId], "challenges") == challengeResponse
    ensures forall k :: k in ProfileOf(store, userId) && k != "challenges" ==>
      k in r.store[userId] && r.store[userId][k] == ProfileOf(store, userId)[k]
    ensures r.store[userId].Keys == ProfileOf(store, userId).Keys + {"challenges"}
    ensures forall u :: u != userId ==> (u in r.store <==> u in store)
    ensures forall u :: u in store && u != userId ==> r.store[u] == store[u]
    ensures completion.Completed? ==> r.reply == Reply(200, CoachBody(None, completion.content))
    ensures completion.CompletionFailed? ==> r.reply == Reply(500, ErrorBody(ChallengeError, None))
  {
    var updated := UpdateUserProfile(store, userId, map["challenges" := challengeResponse]);
    match completion
    case Completed(content) => ChallengeResult(updated, Reply(200, CoachBody(None, content)))
    case CompletionFailed => ChallengeResult(updated, Reply(500, ErrorBody(ChallengeError, None)))
  }

  /** The store an update-challenges call leaves does not depend on the
      completion call. */
  lemma ChallengePersistsOnFailure(store: Store, userId: string, challengeResponse: Value, content: string)
    ensures UpdateChallenges(store, userId, challengeResponse, CompletionFailed).store
         == UpdateChallenges(store, userId, challengeResponse, Completed(content)).store
  {
  }

  /** A truthy challenge recorded here is the challenge of the next
      create-workout prompt for that user, whether or not the completion
      call of either request succeeded. */
  lemma ChallengeFeedsNextWorkout(store: Store, userId: string, challenge: Value, c1: Completion,
                                  fitnessGoal: Value, userResponse: Value, c2: Completion)
    requires Truthy(challenge)
    ensures var s1 := UpdateChallenges(store, userId, challenge, c1).store;
      CreateWorkout(s1, userId, fitnessGoal, userResponse, c2).prompt.challenges == challenge
  {
  }
}

=== FILE: strings.dfy ===
/** The string operations the JavaScript code relies on: substring search
    (`String.prototype.includes`), `Array.prototype.join` and the decimal
    rendering of a counter inside a template literal. */
module Strings {

  /** `sub` occurs in `s` starting at index `i`. */
  predicate OccursAt(s: string, sub: string, i: int) {
    0 <= i && i + |sub| <= |s| && s[i..i + |sub|] == sub
  }

  /** `p` is a prefix of `s`. */
  predicate IsPrefix(p: string, s: string) {
    |p| <= |s| && s[..|p|] == p
  }

  /** An occurrence inside a suffix is an occurrence in the whole string,
      shifted by the length of what was dropped. */
  lemma OccursInTail(s: string, sub: string, k: nat, i: int)
    requires k <= |s| && 0 <= i
    ensures OccursAt(s[k..], sub, i) <==> OccursAt(s, sub, k + i)
  {
    if 0 <= i && i + |sub| <= |s| - k {
      assert s[k..][i..i + |sub|] == s[k + i..k + i + |sub|];
    }
  }

  /** An occurrence in `t` is an occurrence in `w + t`, shifted by `|w|`. */
  lemma OccursAfter(w: string, t: string, sub: string, i: int)
    requires OccursAt(t, sub, i)
    ensures OccursAt(w + t, sub, |w| + i)
  {
    assert (w + t)[|w|..] == t;
    OccursInTail(w + t, sub, |w|, i);
  }

  /** An occurrence in `t` is an occurrence in `t + w`. */
  lemma OccursBefore(t: string, w: string, sub: string, i: int)
    requires OccursAt(t, sub, i)
    ensures OccursAt(t + w, sub, i)
  {
    assert (t + w)[i..i + |sub|] == t[i..i + |sub|];
  }

  /** Substring occurrence is transitive: an occurrence of `v` inside an
      occurrence of `u` is an occurrence of `v` in `s`. */
  lemma OccursTransitive(s: string, u: string, v: string, i: int, j: int)
    requires OccursAt(s, u, i) && OccursAt(u, v, j)
    ensures OccursAt(s, v, i + j)
  {
    forall t | 0 <= t < |v|
      ensures s[i + j + t] == v[t]
    {
      assert u[j + t] == v[t];
      assert s[i..i + |u|][j + t] == s[i + j + t];
    }
    assert s[i + j..i + j + |v|] == v;
  }

  /** JavaScript's `s.includes(sub)`: true exactly when `sub` occurs somewhere
      in `s` (the empty string occurs everywhere). */
  function Includes(s: string, sub: string): (b: bool)
    ensures b <==> exists i :: OccursAt(s, sub, i)
    decreases |s|
  {
    if |sub| > |s| then false
    else if s[..|sub|] == sub then
      assert OccursAt(s, sub, 0);
      true
    else
      var rest := Includes(s[1..], sub);
      assert rest ==> exists i :: OccursAt(s, sub, i) by {
        if rest {
          var i :| OccursAt(s[1..], sub, i);
          OccursInTail(s, sub, 1, i);
        }
      }
      assert (exists i :: OccursAt(s, sub, i)) ==> rest by {
        if exists i :: OccursAt(s, sub, i) {
          var i :| OccursAt(s, sub, i);
          assert i != 0;
          OccursInTail(s, sub, 1, i - 1);
        }
      }
      rest
  }

  /** A string is included in any text that embeds it. */
  lemma IncludesMiddle(a: string, b: string, c: string)
    ensures Includes(a + b + c, b)
  {
    assert OccursAt(b, b, 0);
    OccursBefore(b, c, b, 0);
    OccursAfter(a, b + c, b, 0);
    assert a + (b + c) == a + b + c;
  }

  /** If `u` is in `s` and `v` is in `u`, then `v` is in `s`. */
  lemma {:induction false} IncludesTransitive(s: string, u: string, v: string)
    requires Includes(s, u) && Includes(u, v)
    ensures Includes(s, v)
  {
    var i :| OccursAt(s, u, i);
    var j :| OccursAt(u, v, j);
    OccursTransitive(s, u, v, i, j);
  }

  /** The combined length of a list of strings. */
  function TotalLength(xs: seq<string>): nat
    decreases |xs|
  {
    if |xs| == 0 then 0 else |xs[0]| + TotalLength(xs[1..])
  }

  /** `Array.prototype.join(sep)` on an array of strings: the items in
      order, one separator between each neighbouring pair and none at the
      ends. */
  function Join(xs: seq<string>, sep: string): (r: string)
    ensures |xs| == 0 ==> r == ""
    ensures |xs| > 0 ==> |r| == TotalLength(xs) + (|xs| - 1) * |sep|
    ensures |xs| > 0 ==> IsPrefix(xs[0], r)
    ensures |xs| > 1 ==> IsPrefix(xs[0] + sep, r)
    decreases |xs|
  {
    if |xs| == 0 then ""
    else if |xs| == 1 then xs[0]
    else xs[0] + sep + Join(xs[1..], sep)
  }

  /** Joining one more element extends the joined text by the separator and
      that element, and changes nothing before it. */
  lemma {:induction false} JoinSnoc(xs: seq<string>, x: string, sep: string)
    requires |xs| > 0
    ensures Join(xs + [x], sep) == Join(xs, sep) + sep + x
    decreases |xs|
  {
    if |xs| == 1 {
      assert xs + [x] == [xs[0], x];
      assert (xs + [x])[1..] == [x];
    } else {
      assert (xs + [x])[1..] == xs[1..] + [x];
      JoinSnoc(xs[1..], x, sep);
    }
  }

  /** Every element of a joined list appears in the joined text. */
  lemma {:induction false} JoinIncludesEach(xs: seq<string>, sep: string, k: nat)
    requires k < |xs|
    ensures Includes(Join(xs, sep), xs[k])
    decreases |xs|
  {
    if |xs| == 1 {
      assert OccursAt(Join(xs, sep), xs[k], 0);
    } else if k == 0 {
      OccursBefore(xs[0], sep + Join(xs[1..], sep), xs[0], 0);
      assert xs[0] + (sep + Join(xs[1..], sep)) == Join(xs, sep);
    } else {
      JoinIncludesEach(xs[1..], sep, k - 1);
      var i :| OccursAt(Join(xs[1..], sep), xs[k], i);
      OccursAfter(xs[0] + sep, Join(xs[1..], sep), xs[k], i);
    }
  }

  /** The character of a decimal digit. */
  function DigitChar(d: nat): (c: char)
    requires d < 10
  {
    (48 + d) as char
  }

  /** Every character of `s` is a decimal digit. */
  predicate AllDigits(s: string) {
    forall i :: 0 <= i < |s| ==> '0' <= s[i] <= '9'
  }

  /** The number a string of decimal digits spells, read from left to right:
      each digit multiplies what was read so far by ten and adds itself. */
  function DecimalValue(s: string): nat
    requires AllDigits(s)
    decreases |s|
  {
    if |s| == 0 then 0
    else DecimalValue(s[..|s| - 1]) * 10 + (s[|s| - 1] as int - '0' as int)
  }

  /** `${n}` for a non-negative integer: its decimal digits, most significant
      first, without leading zeros. */
  function NatToString(n: nat): (r: string)
    ensures |r| >= 1
    ensures n >= 10 ==> |r| >= 2
    ensures AllDigits(r)
    ensures DecimalValue(r) == n
    ensures n == 0 ==> r == "0"
    ensures n > 0 ==> r[0] != '0'
    decreases n
  {
    if n < 10 then
      var r := [DigitChar(n)];
      assert r[..0] == [];
      r
    else
      var high := NatToString(n / 10);
      var r := high + [DigitChar(n % 10)];
      assert r[..|r| - 1] == high;
      r
  }

  /** Distinct numbers render as distinct strings. */
  lemma {:induction false} NatToStringInjective(n: nat, m: nat)
    requires NatToString(n) == NatToString(m)
    ensures n == m
    decreases n
  {
    var a, b := NatToString(n), NatToString(m);
    if n < 10 && m < 10 {
      assert a[0] == b[0];
    } else if n >= 10 && m >= 10 {
      assert a[|a| - 1] == DigitChar(n % 10);
      assert b[|b| - 1] == DigitChar(m % 10);
      assert n % 10 == m % 10;
      assert a[..|a| - 1] == NatToString(n / 10);
      assert b[..|b| - 1] == NatToString(m / 10);
      NatToStringInjective(n / 10, m / 10);
    } else {
      assert false;
    }
  }
}

=== FILE: wrappers.dfy ===
/** The optional-value datatype shared by every module of the model. */
module Wrappers {

  /** A value that may be missing: JavaScript's `undefined` result of a failed
      lookup or a regular expression that did not match. */
  datatype Option<+T> = None | Some(value: T)
}
